=== FILE: README.md ===
# mic-visualiser, modelled in Dafny

mic-visualiser draws audio-reactive WebGL2 scenes in the browser and crossfades
between them. This project models its core as immutable state plus pure step
functions, and proves properties of that model:

- **`Morph`** models the morph engine's state machine (`MorphEngine`): current and
  target scene, progress, duration and the morphing flag; `setActiveAnimation`,
  `morphTo`, the transition step of `update`, the layer plan `render` draws, and
  the `easeInOutCubic` curve.
- **`Engine`** models the morph engine driving its roster of scenes. `update`
  advances exactly the scenes shown. `render` draws one scene, or the current scene
  under normal blending and then the target under additive blending. It also
  models the canvas's roster, start-up and shuffle control.
- **`Animation`** models the base scene (`BaseAnimation`): the local clock, the
  parameter map with default-on-read and clamp-on-write, `lerpParams`, the
  audio-to-parameter mapping, and the lazy-initialisation flag.
- **`Scenes`** models the four scenes (wave, fractal, particle, Lissajous) as one
  tagged datatype. It covers their defaults, what `init` creates and uploads,
  the trace each `render` emits (program selection, uniform writes, buffer binds,
  draws and blend switches) and what `dispose` deletes.
- **`Audio`** models the feature reduction of `AudioAnalyzer`: band averages,
  volume, the 64-point strided spectrum, the dominant bin, and `start` / `stop`.
- **`Renderer`** models `WebGLRenderer`'s own bookkeeping. It holds the name-keyed
  program registry (an insertion-ordered association list, like a JavaScript
  `Map`), the buffer registry, the uniform-location cache, the blend function and
  the sizes.
- **`Gl`** is the WebGL2 context as the model sees it. Every GL call appends an
  `Event` to a trace held in the renderer state. Answers the model cannot compute
  are a `Driver` value passed as a parameter: compile and link status, uniform
  locations, and the text a program object turns into inside a template string.
- **`Basics`** holds `Option` and `Result`.

A call that throws in JavaScript returns `Renderer.Threw(error, gl)`. `gl` is the
renderer as the call left it, so partial effects are kept: for example the
Lissajous point program stays registered when the line program then fails.

The location cache key is the program printed into a template string, then `_`,
then the uniform name. Browsers print every `WebGLProgram` as the same text, so
same-named uniforms of different programs share one cache slot. `Gl.Driver.show`
is therefore not required to be injective, and `Renderer.SharedCacheSlot` shows
the consequence: the second program's write goes to the first program's location.

Where the written behaviour and its description differ, the model follows the code:

- A completed transition leaves progress at 1, not 0.
- An inactive analyzer returns an empty spectrum, not 64 zeros.
- A scene's `dispose` keeps its buffer references, so a second call deletes the
  same buffers again.

## Model

| member | source | states |
|---|---|---|
| `Morph.Initial` | src/morphing/MorphEngine.js:2-9 | the constructor starts at scene 0, idle, with zero progress and zero duration |
| `Morph.SetActive` | src/morphing/MorphEngine.js:11-16 | current and target become `i`, progress 0, not morphing; a transition under way is dropped and the duration kept |
| `Morph.MorphTo` | src/morphing/MorphEngine.js:18-25 | a request for the current scene changes nothing, even mid-transition; any other request restarts from progress 0 toward `i` with the new duration, current unchanged |
| `Morph.Advance` | src/morphing/MorphEngine.js:28-36 | idle: unchanged; morphing: progress grows by `dt / duration`, and on reaching 1 it is clamped to 1, the target becomes current and morphing stops |
| `Morph.LayersOf` | src/morphing/MorphEngine.js:47-70 | idle renders the current scene alone; morphing renders a crossfade from current to target |
| `Morph.InvPreserved` | src/morphing/MorphEngine.js:11-36 | `setActiveAnimation`, `morphTo` (positive duration) and the transition step (non-negative frame time) keep the invariant: indices in the roster, progress in [0, 1], idle implies target == current |
| `Morph.InitialInv` | src/morphing/MorphEngine.js:4-8 | the constructed state satisfies the invariant for any non-empty roster |
| `Morph.UpdatedAreDrawn` | src/morphing/MorphEngine.js:39-44 | the scenes `update` advances after the transition step are exactly the scenes `render` then draws |
| `Morph.LayersIgnoreProgress` | src/morphing/MorphEngine.js:53-68 | what `render` draws does not depend on progress or duration: the eased value is computed and never used |
| `Morph.Run` | src/morphing/MorphEngine.js:27-36 | after `n` equal frames, a state still morphing was morphing at the start and kept its duration |
| `Morph.RunMorph` | src/morphing/MorphEngine.js:29-35 | after `n` frames of length `dt`, progress is the start plus `n` increments of `dt / duration` while that stays below 1, and the transition is finished once it reaches 1 |
| `Morph.TwentyFramesFinish` | src/morphing/MorphEngine.js:29-35 | a 2-second transition with 0.1-second frames is still running after 19 frames and finished after 20 |
| `Morph.RunFrames` | src/morphing/MorphEngine.js:27-36 | after any sequence of frames, a state still morphing was morphing at the start and kept its duration |
| `Morph.IdleStays` | src/morphing/MorphEngine.js:28 | any number of frames leaves an idle state unchanged |
| `Morph.GainFinishes` | src/morphing/MorphEngine.js:29-35 | frames whose increments `dt / duration` reach 1 from the current progress finish the transition |
| `Morph.FramesComplete` | src/morphing/MorphEngine.js:28-36 | non-negative frame times summing to at least `duration * (1 - progress)` always complete the transition: target current, progress 1, idle |
| `Morph.GainIsSumOver` | src/morphing/MorphEngine.js:29 | the increments of a frame sequence add up to its total time divided by the duration |
| `Morph.EaseFixedPoints` | src/morphing/MorphEngine.js:73-77 | the easing curve maps 0 to 0, 1/2 to 1/2 and 1 to 1 |
| `Morph.Ease` | src/morphing/MorphEngine.js:73-77 | on [0, 1] the eased value stays in [0, 1], and is below 1/2 exactly when its argument is |
| `Morph.EaseMonotone` | src/morphing/MorphEngine.js:73-77 | the easing curve is non-decreasing on [0, 1] |
| `Morph.EaseSymmetric` | src/morphing/MorphEngine.js:73-77 | `ease(1 - t) == 1 - ease(t)` on [0, 1]: the two halves of the curve mirror each other |
| `Engine.Roster` | src/components/ArtCanvas.jsx:30-35 | four freshly constructed scenes: wave, particle, fractal, Lissajous |
| `Engine.Start` | src/components/ArtCanvas.jsx:38-40 | construction followed by `setActiveAnimation(0)`: scene 0 current, idle, engine invariant established |
| `Engine.Update` | src/morphing/MorphEngine.js:27-45 | first the transition step; then exactly the scenes visible afterwards get their `update`, and every other scene is left as it was; the invariant is kept |
| `Engine.UpdateTouchesDrawn` | src/morphing/MorphEngine.js:39-44 | a scene changed by `update` is one the next `render` draws, and every scene drawn has had its clock advanced by `dt` |
| `Engine.CompletingTickAdvancesTarget` | src/morphing/MorphEngine.js:31-44 | on the frame that completes a transition only the old target, now current, advances; the scene faded out does not |
| `Engine.HiddenClockStops` | src/morphing/MorphEngine.js:41-43 | while idle, a scene other than the current one keeps its clock |
| `Engine.Render` | src/morphing/MorphEngine.js:47-70 | only the drawn scenes change, and only by lazy initialisation; the frame fails exactly when a drawn scene cannot initialise; its draws and blend switches are the plan's; after a crossfade blending is on with the normal blend function |
| `Engine.RenderSingle` | src/morphing/MorphEngine.js:48-50 | the idle frame is the current scene's render: its draws and switches, and normal blending stays normal |
| `Engine.Underlay` | src/morphing/MorphEngine.js:57-63 | blending is enabled and set to normal, then the current scene draws under normal blending |
| `Engine.Overlay` | src/morphing/MorphEngine.js:65-68 | additive blending, then the target scene draws under additive blending, then normal again |
| `Engine.RenderCrossfade` | src/morphing/MorphEngine.js:51-69 | the transition frame: the current scene's draws under normal blending, then the target's under additive; switches normal, the current scene's, additive, the target's, normal; the blend ends normal |
| `Engine.Step` | src/components/ArtCanvas.jsx:71-74 | one frame of the loop: `update`, then `render` of the advanced state; the scenes returned are the updated scenes as the render marked them: every drawn scene's clock has advanced by the frame time, a scene not drawn is exactly as it was; the frame fails exactly when some drawn scene cannot get ready; on success the draws are the plan of the updated scenes, the blend switches are the plan's switches, and normal blending is normal again afterwards |
| `Engine.Shuffle` | src/components/ArtCanvas.jsx:103-108 | the control picks the roster entry after the chosen one, `(chosen + 1) % length`; if that is the current scene the engine is unchanged, otherwise a 2-second transition from the current scene toward it starts at progress 0; the scenes are untouched and the invariant kept |
| `Engine.ShuffleFromIdle` | src/components/ArtCanvas.jsx:105-106 | from an idle engine showing the chosen scene, a press starts a transition from 0 toward the next scene, and both are drawn |
| `Engine.ShufflePressIgnored` | src/components/ArtCanvas.jsx:105-107 | when the next index is the scene still current, the engine ignores the press while the control moves on, so the two drift apart |
| `Engine.StartShowsWave` | src/components/ArtCanvas.jsx:30-40 | the start-up engine is valid and draws the wave scene alone |
| `Animation.Clamp` | src/animations/BaseAnimation.js:49 | the result is in [0, 1], equals the input inside it, and is the nearer end outside it |
| `Animation.GetParam` | src/animations/BaseAnimation.js:43-45 | the stored value when the name is present, otherwise the fallback |
| `Animation.SetParam` | src/animations/BaseAnimation.js:48-50 | stores the clamped value (read back by `getParam`), adds the name, leaves every other name alone |
| `Animation.LerpedValue` | src/animations/BaseAnimation.js:57-59 | the value stored per key is in [0, 1] |
| `Animation.LerpParams` | src/animations/BaseAnimation.js:53-61 | the keys become the union of both maps; each holds this side's value (0.5 if absent) moved toward the other's (0.5 if absent) by `t`, clamped; the other map is only read |
| `Animation.LerpBetween` | src/animations/BaseAnimation.js:59 | for `t` in [0, 1], `a + (b - a) * t` lies between `a` and `b` |
| `Animation.LerpParamsBetween` | src/animations/BaseAnimation.js:53-61 | with normalised maps and `t` in [0, 1], every interpolated value lies between the two sides' values |
| `Animation.LerpParamsEnds` | src/animations/BaseAnimation.js:53-61 | with normalised maps, `t = 0` keeps this side's values and `t = 1` copies the other's; a name missing on the kept side becomes 0.5 |
| `Animation.NewBase` | src/animations/BaseAnimation.js:2-8 | a new scene has time 0, no parameters and is not initialised |
| `Animation.UpdateFromAudio` | src/animations/BaseAnimation.js:26-31 | intensity := bass, speed := 0.5 + 0.5 * mid, colorShift := treble, unclamped; other names untouched; speed in [0.5, 1] when mid is in [0, 1] |
| `Animation.Update` | src/animations/BaseAnimation.js:16-23 | time advances by `dt`; parameters change only when audio is given, and then by the audio mapping |
| `Animation.AudioKeepsNormalised` | src/animations/BaseAnimation.js:26-31 | features in [0, 1] keep a normalised parameter map normalised |
| `Animation.BaseRender` | src/animations/BaseAnimation.js:34-40 | the base render throws the abstract `init` error when not initialised, else its own error, and changes nothing |
| `Audio.New` | src/engine/AudioAnalyzer.js:2-9 | nothing held, no buffer, inactive |
| `Audio.Start` | src/engine/AudioAnalyzer.js:11-37 | refused access changes nothing and returns false; granted access gives an active analyzer with a zeroed 1024-byte buffer (2048-point window) and returns true |
| `Audio.Stop` | src/engine/AudioAnalyzer.js:39-51 | inactive, microphone and context released; the analyser node and its buffer kept |
| `Audio.StopTwiceIsStop` | src/engine/AudioAnalyzer.js:39-55 | stopping twice is stopping once, and a stopped analyzer reports inactive |
| `Audio.SumBinsIsSliceTotal` | src/engine/AudioAnalyzer.js:96-101 | the averaging loop adds exactly the bins from `start` below both `end` and the buffer length |
| `Audio.SumBins` | src/engine/AudioAnalyzer.js:99-101 | the averaging loop's sum is never negative and, counting from `start`, at most `255 * (end - start)` |
| `Audio.AverageFrequency` | src/engine/AudioAnalyzer.js:95-104 | the sum of the bins of `[start, min(end, len))` over `end - start` over 255, which lies in [0, 1] when `end > start` |
| `Audio.Volume` | src/engine/AudioAnalyzer.js:70-74 | the total of all bins over the bin count over 255, in [0, 1] |
| `Audio.SpectrumBin` | src/engine/AudioAnalyzer.js:79-82 | the `i`-th sample reads bin `i * floor(len / 64)`, always inside the buffer |
| `Audio.Spectrum` | src/engine/AudioAnalyzer.js:77-83 | exactly 64 samples, each the strided bin over 255, each in [0, 1] |
| `Audio.GetFrequencyData` | src/engine/AudioAnalyzer.js:57-93 | inactive: all zeros, empty spectrum, buffer not read; active: the buffer is refreshed, bass, mid and treble average bins [0, 100), [100, 500) and [500, len), plus volume, spectrum and the raw bytes; every value in [0, 1] |
| `Audio.BandsPartitionBuffer` | src/engine/AudioAnalyzer.js:65-67 | on a full buffer the three bands cover every bin exactly once |
| `Audio.Scan` | src/engine/AudioAnalyzer.js:110-118 | the scan from `maxValue = 0` ends at the first index holding the maximum (0 for an empty buffer) |
| `Audio.DominantBin` | src/engine/AudioAnalyzer.js:110-118 | the dominant bin is the first index of the maximum, so 0 when every bin is 0 |
| `Audio.DominantFrequency` | src/engine/AudioAnalyzer.js:107-123 | 0 when inactive; otherwise the dominant bin times Nyquist over the bin count, never above Nyquist |
| `Gl.BrowserDriver` | src/engine/WebGLRenderer.js:87 | a browser prints every program object as the same text |
| `Renderer.Create` | src/engine/WebGLRenderer.js:2-33 | fails with "WebGL2 not supported" without a context; otherwise blending is on with normal blending, registries and cache are empty, the size fields are 0 |
| `Renderer.AdditiveBlending` | src/engine/WebGLRenderer.js:23-25 | switches to (SRC_ALPHA, ONE) and changes nothing else |
| `Renderer.NormalBlending` | src/engine/WebGLRenderer.js:27-29 | switches to (SRC_ALPHA, ONE_MINUS_SRC_ALPHA) and changes nothing else |
| `Renderer.EnableBlending` | src/engine/WebGLRenderer.js:19 | turns blending on and changes nothing else |
| `Renderer.BlendTogglesIdempotent` | src/engine/WebGLRenderer.js:19-29 | either toggle applied twice is applied once; normal after additive is plain normal; normal on a normal renderer changes no state |
| `Renderer.Lookup` | src/engine/WebGLRenderer.js:72 | `Map.get` finds a handle exactly for a registered name, and only a registered handle |
| `Renderer.Register` | src/engine/WebGLRenderer.js:67 | `Map.set`: the name now finds the new handle; every other name finds what it found before; a new name adds one entry |
| `Renderer.RegisterFresh` | src/engine/WebGLRenderer.js:53-67 | registering a fresh program object keeps names and handles unique |
| `Renderer.CreateShader` | src/engine/WebGLRenderer.js:35-47 | a fresh shader object; a compile failure deletes it and throws the compile error of its stage |
| `Renderer.CreateProgram` | src/engine/WebGLRenderer.js:49-69 | success exactly when both shaders compile and the program links; the trace in each case: a vertex compile failure compiles and deletes that shader only; a fragment failure compiles both and deletes the fragment shader; a link failure compiles both and links a third handle, and deletes nothing, so both shaders and the program object are left behind; success emits that same prefix, then deletes both shaders, returns the third handle and registers it under its name, replacing an earlier one |
| `Renderer.LinkShaders` | src/engine/WebGLRenderer.js:52-68 | once both shaders compiled: success exactly when the program links; the trace is the link of a fresh handle, followed on success only by the deletion of both shaders; a failure throws and registers nothing; success returns that handle, registered under the name |
| `Renderer.GetProgram` | src/engine/WebGLRenderer.js:71-73 | a program is found exactly for a registered name |
| `Renderer.UseProgram` | src/engine/WebGLRenderer.js:75-77 | selects the program and changes no bookkeeping |
| `Renderer.CreateBuffer` | src/engine/WebGLRenderer.js:79-84 | a fresh buffer holding the data; the renderer's buffer registry is never touched |
| `Renderer.CreateFullScreenQuad` | src/engine/WebGLRenderer.js:158-169 | a fresh buffer of six (x, y) vertices, every coordinate -1 or 1 |
| `Renderer.DrawArrays` | src/animations/WaveAnimation.js:127 | one draw, recorded with the blend function in effect |
| `Renderer.Encode` | src/engine/WebGLRenderer.js:97-116 | `1f`/`1i` send the number, `2f`/`3f`/`4f` the first 2, 3 or 4 components, `mat4` the matrix untransposed; an unknown tag sends nothing |
| `Renderer.SetUniform` | src/engine/WebGLRenderer.js:86-117 | the driver is asked only for an uncached key and its answer is cached even when null; a null location or unknown tag writes nothing; otherwise one write of the encoded value to the resolved location |
| `Renderer.SharedCacheSlot` | src/engine/WebGLRenderer.js:87-93 | two programs that print alike share each uniform's cache slot: the second program's write goes to the first program's location, or is dropped if that was null |
| `Renderer.CacheKeyNames` | src/engine/WebGLRenderer.js:87 | for one program, or two that print alike, the cache key tells uniform names apart: the slots coincide exactly for the same name |
| `Renderer.LocationQueriedOnce` | src/engine/WebGLRenderer.js:88-93 | the second `setUniform` of the same key uses the cached location, whatever the driver would now say, and leaves the cache alone |
| `Renderer.Resize` | src/engine/WebGLRenderer.js:124-135 | the canvas size ends equal to the client size; the size fields and viewport change only when it differed; nothing changes when it was equal, so a canvas that already had its client size keeps size fields 0 |
| `Renderer.ResizeIdempotent` | src/engine/WebGLRenderer.js:128-134 | a second resize with the same client size changes nothing |
| `Renderer.ProgramDeletions` | src/engine/WebGLRenderer.js:143-145 | one program deletion per registered program, in registration order |
| `Renderer.BufferDeletions` | src/engine/WebGLRenderer.js:149-151 | one buffer deletion per registered buffer, in registration order |
| `Renderer.DeletionsCountOnce` | src/engine/WebGLRenderer.js:143-145 | with unique handles each registered program is deleted exactly once, and nothing else is |
| `Renderer.Dispose` | src/engine/WebGLRenderer.js:141-155 | emits the program deletions and then the buffer deletions, and leaves programs, buffers and the cache empty |
| `Renderer.DisposeDeletesEachOnce` | src/engine/WebGLRenderer.js:141-155 | on a valid renderer, dispose deletes each registered program once and emits only program deletions |
| `Scenes.New` | src/animations/WaveAnimation.js:87-91 | default parameters: intensity 0.7 for wave (0.9 fractal, 0.8 particle and Lissajous), speed 1.0, colorShift 0.0; time 0; not initialised |
| `Scenes.Update` | src/animations/BaseAnimation.js:16-23 | a scene's update is the base update; its resources are untouched |
| `Scenes.MakeProgram` | src/animations/WaveAnimation.js:96 | `createProgram` with the scene's sources: it succeeds exactly when they build, and registers the program under its name |
| `Scenes.InitQuad` | src/animations/WaveAnimation.js:94-103 | registers the scene's program and then uploads the full-screen quad; a program failure throws before any upload |
| `Scenes.InitCloud` | src/animations/ParticleAnimation.js:106-127 | registers `particle`, then uploads 2 * 2000 zeros and the indices 0 .. 1999, in that order |
| `Scenes.InitCurve` | src/animations/LissajousAnimation.js:172-188 | registers `lissajous_point`, then `lissajous_line`, then uploads the indices 0 .. 999; a line-program failure leaves the point program registered |
| `Scenes.CurveRegistersBoth` | src/animations/LissajousAnimation.js:174-175 | after both registrations each program is found under its own name |
| `Scenes.Init` | src/animations/FractalAnimation.js:143-152 | each kind's `init` succeeds exactly when its programs build, registers its program names and uploads its buffers |
| `Scenes.Plan` | src/animations/WaveAnimation.js:116-120 | a pass sets `u_time`, `u_resolution`, `u_intensity`, `u_speed` and, except for particles, `u_colorShift`, all with tags `setUniform` knows |
| `Scenes.FreshPlan` | src/animations/FractalAnimation.js:165-169 | a fresh scene's first pass sends time 0, the renderer's size fields `width`/`height` (0 until a resize finds the canvas size different from the client size) and its default parameters |
| `Scenes.SetUniforms` | src/animations/ParticleAnimation.js:140-143 | the calls of a pass write uniforms only and cache every key; once every key was cached, the cache is unchanged and the writes are exactly those of the cached locations |
| `Scenes.Prepare` | src/animations/WaveAnimation.js:113-123 | select the program, set the uniforms, bind the buffers; no draw and no blend change; in steady state the trace is exactly select, writes, binds |
| `Scenes.StrikeShape` | src/animations/LissajousAnimation.js:226-228 | the draw step draws once, under additive blending when it glows, switching to additive and back to normal |
| `Scenes.Strike` | src/animations/ParticleAnimation.js:155-162 | a glowing draw is bracketed by additive and then normal blending; a plain draw uses the current blend function |
| `Scenes.Writes` | src/engine/WebGLRenderer.js:95-116 | against a cache holding every key, a plan writes at most once per assignment, and only uniform writes |
| `Scenes.Pass` | src/animations/ParticleAnimation.js:137-162 | one draw pass: exactly one draw of `count` vertices from 0 under the pass's blend function, no upload, registries untouched, every key cached afterwards; in steady state the cache is untouched and the trace is select, the plan's writes, the binds, the draw step |
| `Scenes.SteadyAcrossFrames` | src/animations/WaveAnimation.js:116-120 | the uniform names a render sets depend on the scene's kind only, so a scene that moved on in time and parameters stays steady against a cache that only grew |
| `Scenes.DrawScene` | src/animations/FractalAnimation.js:160-176 | wave and fractal draw 6 triangle vertices and never switch blending; particles draw 2000 points additively; Lissajous draws the strip then the points; glowing scenes end normal; afterwards every location of the scene's uniform plan is cached; in steady state the trace is exactly one pass of that plan per program |
| `Scenes.DrawCurve` | src/animations/LissajousAnimation.js:198-228 | a line strip of 1000 under the incoming blend, then 1000 points under additive, then normal; in steady state the line program's pass and then the point program's pass, both writing the same plan against the entry cache |
| `Scenes.RenderedUniforms` | src/animations/LissajousAnimation.js:200-219 | with no location null, a steady render sends `u_time` = the scene clock, `u_resolution` = the renderer's size fields `width`/`height` (0 until a resize finds the canvas size different from the client size), intensity, speed and (except particles) colour shift read with the scene's own defaults, to the cached locations; Lissajous sends these same values in its line pass and again in its point pass, to the cached locations (under a browser driver the point pass reuses the line program's locations, see `Renderer.SharedCacheSlot`) |
| `Scenes.PlanSends` | src/animations/ParticleAnimation.js:140-143 | encoding the uniform plan gives one float for the clock, two for the size, and one per parameter, with the scene's getParam fallbacks |
| `Scenes.PassPayloads` | src/animations/WaveAnimation.js:113-127 | with no location null, the only values a pass sends are its plan's encoded values, in order |
| `Scenes.WritesPayloads` | src/engine/WebGLRenderer.js:95-116 | with no location null, the writes of a plan send each assignment's encoded value, in order |
| `Scenes.WritesPayload` | src/engine/WebGLRenderer.js:95-116 | with every location present, a pass writes once per assignment, in order, its encoded value to its location |
| `Scenes.Render` | src/animations/WaveAnimation.js:105-109 | the first render runs `init` once and marks the scene initialised only if it returns; later renders create nothing and leave the scene as it is; draws and switches follow the scene's plan; a render that returns leaves the scene steady, and a steady render of an initialised scene leaves the cache alone and emits exactly the closed-form trace of its uniform plan |
| `Scenes.Dispose` | src/animations/ParticleAnimation.js:165-172 | deletes the buffers the scene holds and never a program |
| `Scenes.DisposeBeforeInit` | src/animations/WaveAnimation.js:130-134 | disposing a scene that never initialised does nothing |
| `Scenes.DisposeFreesUploads` | src/animations/LissajousAnimation.js:231-235 | dispose deletes exactly the buffers `init` uploaded, in the same order |

## Left out

- GLSL shader sources are opaque: a source is identified by its program name and
  stage. The curve, fractal and colour maths run on the GPU.
- Attribute plumbing and fixed-state calls are not events. This covers
  `getAttribLocation`, `enableVertexAttribArray`, `vertexAttribPointer`,
  `lineWidth`, `clearColor` / `clear`, `shaderSource`, `attachShader` and the info logs.
- `getAspectRatio` is a single division of the size fields, undefined (0/0) until
  a resize finds the canvas size different from the client size.
- `easeOutElastic` is never called and uses `pow` and `sin`.
- Numbers are mathematical reals, not IEEE doubles. Exact completion after twenty
  0.1-second frames holds over reals but not necessarily for doubles.
- `Float32Array` conversion of buffer data is not modelled, and neither is the
  truncation `uniform1i` applies to a non-integer.
- `AudioAnalyzer.start` is asynchronous and talks to the browser. It is a
  transition that takes the permission answer and the sample rate as parameters.
  Smoothing and the analyser's own transform are not modelled; the bytes it
  reports are a parameter of `Audio.GetFrequencyData`.
- `Audio.GetFrequencyData`: the raw bytes it returns are a value. The source
  returns its live byte buffer, which the next read overwrites; nothing in the
  modelled code keeps that buffer across frames.
- `Morph.MorphTo`: its callers must give a positive duration to keep the
  invariant; the only caller passes 2 seconds. The source has no guard. With a
  zero duration, a positive frame time makes progress infinite, so the transition
  finishes on the first frame, while a zero frame time makes it NaN, and the
  transition never ends. With a negative duration, progress falls and the
  transition never ends.
- `Morph.InvPreserved`: assumes frame times are never negative (timestamps of
  `requestAnimationFrame` do not go backwards). `Engine.Update` and `Engine.Step`
  require it for the same reason.
- `Scenes.Pass`: before every location of the pass is cached (the first pass of
  each program), the trace is pinned down only in its draws, switches and absence
  of uploads. The exact write list is stated only once every key is cached. The
  same holds for `Scenes.DrawScene`, `Scenes.DrawCurve` and `Scenes.Render`. After
  any render that returns, the scene is steady, and `Scenes.SteadyAcrossFrames`
  keeps it steady for later frames at the same size.
- A scene whose `init` throws part-way keeps, in JavaScript, the fields it
  assigned before the throw. The model leaves the scene unallocated and
  uninitialised, so the next render runs `init` again in both. Only the renderer
  side of a partial `init` is kept, for example the registered point program.
- Of `ArtCanvas.jsx`, only the roster, the start-up, the loop's
  update-then-render order and the shuffle control are modelled. The FPS counter,
  the audio toggle, the resize listener, React effect re-creation and the
  unmounting cleanup are not.
- A render that throws stops the frame. What then happens to the
  `requestAnimationFrame` loop is not modelled.
- Parameter maps are maps from strings. JavaScript's prototype-inherited keys in
  `params[name]` are not modelled.

=== FILE: animation.dfy ===
/**
  The base scene contract: a local clock, a map of normalised parameters with
  default-on-read and clamp-on-write, parameter interpolation between scenes, the
  fixed audio-to-parameter mapping, and the lazy-initialisation flag.
 */
module Animation {
  import opened Basics
  import Audio

  /** A scene's parameters by name (`this.params`). */
  type Params = map<string, real>

  /** The fallback `getParam` uses when the caller gives none. */
  const DefaultFallback: real := 0.5

  /** Clamping to [0, 1], as `setParam` stores values. */
  function Clamp(v: real): (c: real)
    ensures 0.0 <= c <= 1.0
    ensures 0.0 <= v <= 1.0 ==> c == v
    ensures v < 0.0 ==> c == 0.0
    ensures v > 1.0 ==> c == 1.0
  {
    if v < 0.0 then 0.0 else if v > 1.0 then 1.0 else v
  }

  /** `getParam(name, fallback)`: the stored value, or the fallback when the name is absent. */
  function GetParam(p: Params, name: string, fallback: real): (v: real)
    ensures name in p ==> v == p[name]
    ensures name !in p ==> v == fallback
  {
    if name in p then p[name] else fallback
  }

  /** `setParam(name, value)`: stores the clamped value; other names are untouched. */
  function SetParam(p: Params, name: string, value: real): (p': Params)
    ensures p'.Keys == p.Keys + {name}
    ensures GetParam(p', name, DefaultFallback) == Clamp(value)
    ensures forall n | n in p && n != name :: p'[n] == p[n]
  {
    p[name := Clamp(value)]
  }

  /** The value `lerpParams` stores under `k`: this side's value moved toward the other's by `t`, clamped. */
  function LerpedValue(p: Params, q: Params, k: string, t: real): (v: real)
    ensures 0.0 <= v <= 1.0
  {
    Clamp(Lerp(GetParam(p, k, DefaultFallback), GetParam(q, k, DefaultFallback), t))
  }

  /**
    `lerpParams(other, t)`: for every name of either map, moves this scene's value
    (0.5 when absent) toward the other's (0.5 when absent) by `t`, clamped. The
    other map is only read.
   */
  function LerpParams(p: Params, q: Params, t: real): (p': Params)
    ensures p'.Keys == p.Keys + q.Keys
    ensures forall k | k in p' :: p'[k] == LerpedValue(p, q, k, t)
    ensures Normalised(p')
  {
    map k | k in p.Keys + q.Keys :: LerpedValue(p, q, k, t)
  }

  /** Every stored value is in [0, 1]. */
  predicate Normalised(p: Params)
  {
    forall k | k in p :: 0.0 <= p[k] <= 1.0
  }

  /** Linear interpolation from `a` toward `b` by `t`. */
  function Lerp(a: real, b: real, t: real): real
  {
    a + (b - a) * t
  }

  lemma MulNonNeg(x: real, y: real)
    requires x >= 0.0 && y >= 0.0
    ensures x * y >= 0.0
  {
  }

  /** For `t` in [0, 1] the interpolant lies between its ends. */
  lemma LerpBetween(a: real, b: real, t: real)
    requires 0.0 <= t <= 1.0
    ensures Between(Lerp(a, b, t), a, b)
  {
    var d := b - a;
    if a <= b {
      MulNonNeg(d, t);
      MulNonNeg(d, 1.0 - t);
    } else {
      MulNonNeg(-d, t);
      MulNonNeg(-d, 1.0 - t);
    }
    assert d * t + d * (1.0 - t) == d;
  }

  /**
    With normalised maps and `t` in [0, 1], each interpolated value lies between the
    two sides' values.
   */
  lemma LerpParamsBetween(p: Params, q: Params, t: real)
    requires Normalised(p) && Normalised(q) && 0.0 <= t <= 1.0
    ensures forall k | k in LerpParams(p, q, t) ::
      Between(LerpParams(p, q, t)[k], GetParam(p, k, DefaultFallback), GetParam(q, k, DefaultFallback))
  {
    var r := LerpParams(p, q, t);
    forall k | k in r
      ensures Between(r[k], GetParam(p, k, DefaultFallback), GetParam(q, k, DefaultFallback))
    {
      LerpedBetween(p, q, k, t);
    }
  }

  lemma LerpedBetween(p: Params, q: Params, k: string, t: real)
    requires Normalised(p) && Normalised(q) && 0.0 <= t <= 1.0
    ensures Between(LerpedValue(p, q, k, t), GetParam(p, k, DefaultFallback), GetParam(q, k, DefaultFallback))
  {
    LerpBetween(GetParam(p, k, DefaultFallback), GetParam(q, k, DefaultFallback), t);
  }

  /**
    On normalised maps, `t = 0` keeps this scene's values (names only the other has
    become 0.5) and `t = 1` copies the other's (names only this one has become 0.5).
   */
  lemma LerpParamsEnds(p: Params, q: Params)
    requires Normalised(p) && Normalised(q)
    ensures forall k | k in p :: LerpParams(p, q, 0.0)[k] == p[k]
    ensures forall k | k in q && k !in p :: LerpParams(p, q, 0.0)[k] == DefaultFallback
    ensures forall k | k in q :: LerpParams(p, q, 1.0)[k] == q[k]
    ensures forall k | k in p && k !in q :: LerpParams(p, q, 1.0)[k] == DefaultFallback
  {
    forall k | k in p + q
      ensures LerpedValue(p, q, k, 0.0) == GetParam(p, k, DefaultFallback)
      ensures LerpedValue(p, q, k, 1.0) == GetParam(q, k, DefaultFallback)
    {
      var a := GetParam(p, k, DefaultFallback);
      var b := GetParam(q, k, DefaultFallback);
      assert Lerp(a, b, 0.0) == a;
      assert Lerp(a, b, 1.0) == b;
    }
  }

  /** `v` lies between `a` and `b`, in whichever order they come. */
  predicate Between(v: real, a: real, b: real)
  {
    (a <= b ==> a <= v <= b) && (b <= a ==> b <= v <= a)
  }

  /** The fields every scene inherits: clock, parameters, lazy-init flag. */
  datatype Base = Base(time: real, params: Params, initialized: bool)

  /** The base constructor: time 0, no parameters, not initialised. */
  function NewBase(): (b: Base)
    ensures b.time == 0.0 && b.params == map[] && !b.initialized
  {
    Base(0.0, map[], false)
  }

  /**
    `updateFromAudio`: intensity := bass, speed := 0.5 + 0.5 * mid, colorShift :=
    treble, written directly (no clamping); other names are untouched.
   */
  function UpdateFromAudio(p: Params, f: Audio.Feature): (p': Params)
    ensures p'.Keys == p.Keys + {"intensity", "speed", "colorShift"}
    ensures p'["intensity"] == f.bass && p'["speed"] == 0.5 + f.mid * 0.5 && p'["colorShift"] == f.treble
    ensures forall k | k in p && k !in {"intensity", "speed", "colorShift"} :: p'[k] == p[k]
    ensures 0.0 <= f.mid <= 1.0 ==> 0.5 <= p'["speed"] <= 1.0
  {
    p["intensity" := f.bass]["speed" := 0.5 + f.mid * 0.5]["colorShift" := f.treble]
  }

  /** `update(dt, audio)`: the clock advances by `dt`; parameters change only when audio is given. */
  function Update(b: Base, dt: real, audio: Option<Audio.Feature>): (b': Base)
    ensures b'.time == b.time + dt
    ensures b'.initialized == b.initialized
    ensures audio.None? ==> b'.params == b.params
    ensures audio.Some? ==> b'.params == UpdateFromAudio(b.params, audio.value)
  {
    var params := match audio
      case None => b.params
      case Some(f) => UpdateFromAudio(b.params, f);
    Base(b.time + dt, params, b.initialized)
  }

  /** Audio features in [0, 1] keep a normalised map normalised. */
  lemma AudioKeepsNormalised(p: Params, f: Audio.Feature)
    requires Normalised(p) && Audio.InUnit(f)
    ensures Normalised(UpdateFromAudio(p, f))
  {
  }

  /** The two errors the abstract base throws. */
  const InitAbstract := "init() must be implemented by subclass"
  const RenderAbstract := "render() must be implemented by subclass"

  /**
    The base `render`: when not initialised it calls the abstract `init`, which
    throws before the flag is set; otherwise it throws its own error. Either way
    the result is the error and the unchanged fields.
   */
  function BaseRender(b: Base): (r: (Base, string))
    ensures r.0 == b
    ensures !b.initialized ==> r.1 == InitAbstract
    ensures b.initialized ==> r.1 == RenderAbstract
  {
    if !b.initialized then (b, InitAbstract) else (b, RenderAbstract)
  }
}

=== FILE: audio.dfy ===
/**
  The audio analyzer: reduces the analyser's byte magnitudes to a feature vector
  (bass, mid, treble, volume, a 64-point spectrum) normalised by 255, and finds the
  dominant frequency bin.
 */
module Audio {
  import opened Basics

  /** One unsigned byte of `getByteFrequencyData`. */
  type Byte = x: int | 0 <= x < 256

  /** The transform window configured by `start`. */
  const FftSize: nat := 2048

  /** The analyser's `frequencyBinCount`: half the window. */
  const BinCount: nat := FftSize / 2

  const BassEnd: nat := 100
  const MidEnd: nat := 500
  const SpectrumSamples: nat := 64

  /** What `getFrequencyData` returns; `raw` is the byte buffer itself when active. */
  datatype Feature = Feature(bass: real, mid: real, treble: real, volume: real,
                             spectrum: seq<real>, raw: Option<seq<Byte>>)

  /**
    The analyzer's fields. The microphone, audio context and analyser node are
    external objects; only whether each is held matters. `data` is `dataArray`
    (empty while it is `null`) and `sampleRate` the context's rate.
   */
  datatype Analyzer = Analyzer(
    hasContext: bool,
    hasAnalyser: bool,
    hasMicrophone: bool,
    data: seq<Byte>,
    bufferLength: nat,
    active: bool,
    sampleRate: real)

  /** Once an analyser exists its buffer has `frequencyBinCount` bytes; active implies both nodes exist. */
  predicate Valid(a: Analyzer)
  {
    && (a.hasAnalyser ==> a.bufferLength == BinCount && |a.data| == BinCount)
    && (a.active ==> a.hasAnalyser && a.hasContext)
  }

  /** The constructor: nothing held, no buffer, inactive. */
  function New(): (a: Analyzer)
    ensures Valid(a) && !a.active && !a.hasMicrophone && !a.hasContext && a.bufferLength == 0
  {
    Analyzer(false, false, false, [], 0, false, 0.0)
  }

  /**
    `start`, with the browser's answers as parameters: when microphone access is
    refused nothing changes and the result is false; otherwise the analyser is
    configured with a 2048-point window, its 1024-byte buffer is zeroed, and the
    analyzer becomes active.
   */
  function Start(a: Analyzer, granted: bool, sampleRate: real): (s: (Analyzer, bool))
    ensures s.1 <==> granted
    ensures !granted ==> s.0 == a
    ensures granted ==> s.0.active && s.0.hasMicrophone && s.0.bufferLength == BinCount
    ensures granted ==> forall i | 0 <= i < |s.0.data| :: s.0.data[i] == 0
    ensures Valid(a) ==> Valid(s.0)
  {
    if !granted then (a, false)
    else (Analyzer(true, true, true, seq(BinCount, _ => 0), BinCount, true, sampleRate), true)
  }

  /**
    `stop`: releases the microphone and the context and clears `active`; the
    analyser node and its buffer are kept.
   */
  function Stop(a: Analyzer): (a': Analyzer)
    ensures !a'.active && !a'.hasMicrophone && !a'.hasContext
    ensures a'.hasAnalyser == a.hasAnalyser && a'.data == a.data && a'.bufferLength == a.bufferLength
    ensures Valid(a) ==> Valid(a')
  {
    a.(hasMicrophone := false, hasContext := false, active := false)
  }

  lemma StopTwiceIsStop(a: Analyzer)
    ensures Stop(Stop(a)) == Stop(a)
    ensures !IsActive(Stop(a))
  {
  }

  function IsActive(a: Analyzer): bool
  {
    a.active
  }

  /**
    The loop of `getAverageFrequency`: the sum of `data[i]` for `i` from `i` up to,
    but excluding, both `end` and the buffer length.
   */
  function SumBins(data: seq<Byte>, i: nat, end: int): (s: int)
    ensures 0 <= s
    ensures i <= end ==> s <= 255 * (end - i)
    decreases |data| - i
  {
    if i < end && i < |data| then data[i] + SumBins(data, i + 1, end) else 0
  }

  /** Plain sum of a sequence, the reference for `SumBins`. */
  function Total(xs: seq<Byte>): int
  {
    if xs == [] then 0 else xs[0] + Total(xs[1..])
  }

  function Min(a: int, b: int): int { if a <= b then a else b }

  /** `SumBins` adds exactly the slice `[i, min(end, len))`. */
  lemma {:induction false} SumBinsIsSliceTotal(data: seq<Byte>, i: nat, end: int)
    requires i <= Min(end, |data|)
    ensures SumBins(data, i, end) == Total(data[i..Min(end, |data|)])
    decreases |data| - i
  {
    var m := Min(end, |data|);
    if i < m {
      SumBinsIsSliceTotal(data, i + 1, end);
      assert data[i..m][0] == data[i];
      assert data[i..m][1..] == data[i + 1..m];
    } else {
      assert data[i..m] == [];
    }
  }

  /** A sum of at most `255 * count` bytes, divided by `count` and by 255, is in [0, 1]. */
  lemma NormalisedInUnit(sum: int, count: int)
    requires count > 0 && 0 <= sum <= 255 * count
    ensures 0.0 <= sum as real / count as real / 255.0 <= 1.0
  {
    var q := sum as real / count as real;
    assert q * count as real == sum as real;
    assert q <= 255.0 by {
      if q > 255.0 {
        assert q * count as real > 255.0 * count as real;
      }
    }
  }

  /**
    `getAverageFrequency(start, end)`: the bins from `start` below both `end` and
    the buffer length, summed, divided by `end - start` (even when the buffer is
    shorter) and by 255.
   */
  function AverageFrequency(data: seq<Byte>, start: nat, end: int): (avg: real)
    requires end != start
    ensures start < end ==> 0.0 <= avg <= 1.0
    ensures start < end && start <= |data| ==>
      avg == Total(data[start..Min(end, |data|)]) as real / (end - start) as real / 255.0
  {
    AverageFacts(data, start, end);
    SumBins(data, start, end) as real / (end - start) as real / 255.0
  }

  lemma AverageFacts(data: seq<Byte>, start: nat, end: int)
    requires end != start
    ensures start < end ==> 0.0 <= SumBins(data, start, end) as real / (end - start) as real / 255.0 <= 1.0
    ensures start <= Min(end, |data|) ==> SumBins(data, start, end) == Total(data[start..Min(end, |data|)])
  {
    if start < end {
      NormalisedInUnit(SumBins(data, start, end), end - start);
    }
    if start <= Min(end, |data|) {
      SumBinsIsSliceTotal(data, start, end);
    }
  }

  /** Overall volume: the mean of all bins, divided by 255. */
  function Volume(data: seq<Byte>): (v: real)
    requires |data| > 0
    ensures 0.0 <= v <= 1.0
    ensures v == Total(data) as real / |data| as real / 255.0
  {
    NormalisedInUnit(SumBins(data, 0, |data|), |data|);
    SumBinsIsSliceTotal(data, 0, |data|);
    assert data[0..|data|] == data;
    SumBins(data, 0, |data|) as real / |data| as real / 255.0
  }

  /** The bin the `i`-th spectrum sample reads: a stride of `len / 64` bins. */
  function SpectrumBin(len: nat, i: nat): (b: nat)
    requires len > 0 && i < SpectrumSamples
    ensures b < len
    ensures len >= SpectrumSamples ==> b + len / SpectrumSamples <= len
  {
    var step := len / SpectrumSamples;
    assert i * step <= (SpectrumSamples - 1) * step by {
      assert (SpectrumSamples - 1 - i) * step >= 0;
    }
    assert SpectrumSamples * step <= len;
    i * step
  }

  /** The 64-point spectrum: every `len / 64`-th bin, divided by 255. */
  function Spectrum(data: seq<Byte>): (sp: seq<real>)
    requires |data| > 0
    ensures |sp| == SpectrumSamples
    ensures forall i | 0 <= i < |sp| :: 0.0 <= sp[i] <= 1.0
    ensures forall i | 0 <= i < |sp| :: sp[i] * 255.0 == data[SpectrumBin(|data|, i)] as real
  {
    seq(SpectrumSamples, i requires 0 <= i < SpectrumSamples => data[SpectrumBin(|data|, i)] as real / 255.0)
  }

  /** The feature vector of an inactive analyzer. */
  const Silent := Feature(0.0, 0.0, 0.0, 0.0, [], None)

  /**
    `getFrequencyData`, given the bytes the analyser node reports this call. When
    inactive (or without an analyser) the result is all zeros with an empty
    spectrum and nothing is read; otherwise the buffer is refreshed and reduced.
   */
  function GetFrequencyData(a: Analyzer, captured: seq<Byte>): (r: (Analyzer, Feature))
    requires Valid(a)
    requires a.active && a.hasAnalyser ==> |captured| == a.bufferLength
    ensures !a.active || !a.hasAnalyser ==> r == (a, Silent)
    ensures a.active ==> r.0 == a.(data := captured) && Valid(r.0)
    ensures a.active ==>
      && r.1.bass == AverageFrequency(captured, 0, BassEnd)
      && r.1.mid == AverageFrequency(captured, BassEnd, MidEnd)
      && r.1.treble == AverageFrequency(captured, MidEnd, a.bufferLength)
      && r.1.volume == Volume(captured)
      && r.1.spectrum == Spectrum(captured)
      && r.1.raw == Some(captured)
    ensures InUnit(r.1)
  {
    if !a.active || !a.hasAnalyser then (a, Silent)
    else
      (a.(data := captured),
       Feature(AverageFrequency(captured, 0, BassEnd),
               AverageFrequency(captured, BassEnd, MidEnd),
               AverageFrequency(captured, MidEnd, a.bufferLength),
               Volume(captured),
               Spectrum(captured),
               Some(captured)))
  }

  /** Every scalar and spectrum sample of a feature lies in [0, 1]. */
  predicate InUnit(f: Feature)
  {
    && 0.0 <= f.bass <= 1.0 && 0.0 <= f.mid <= 1.0 && 0.0 <= f.treble <= 1.0
    && 0.0 <= f.volume <= 1.0
    && forall i | 0 <= i < |f.spectrum| :: 0.0 <= f.spectrum[i] <= 1.0
  }

  /**
    The three bands partition a full buffer: the bass, mid and treble slices add
    up to all 1024 bins, each bin counted once.
   */
  lemma BandsPartitionBuffer(data: seq<Byte>)
    requires |data| == BinCount
    ensures Total(data[0..BassEnd]) + Total(data[BassEnd..MidEnd]) + Total(data[MidEnd..BinCount]) == Total(data)
  {
    var low := data[0..MidEnd];
    TotalSplit(low, BassEnd);
    TotalSplit(data, MidEnd);
    assert low[..BassEnd] == data[0..BassEnd];
    assert low[BassEnd..] == data[BassEnd..MidEnd];
    assert data[..MidEnd] == low;
    assert data[MidEnd..] == data[MidEnd..BinCount];
  }

  lemma {:induction false} TotalSplit(xs: seq<Byte>, k: nat)
    requires k <= |xs|
    ensures Total(xs) == Total(xs[..k]) + Total(xs[k..])
  {
    if k > 0 {
      TotalSplit(xs[1..], k - 1);
      assert xs[1..][..k - 1] == xs[..k][1..];
      assert xs[1..][k - 1..] == xs[k..];
    } else {
      assert xs[..0] == [];
      assert xs[0..] == xs;
    }
  }

  /**
    `k` is where the dominant-frequency scan ends: the first index holding the
    strict maximum, or 0 when the buffer is empty.
   */
  predicate IsFirstMax(data: seq<Byte>, k: nat)
  {
    if data == [] then k == 0
    else
      && k < |data|
      && (forall j | 0 <= j < |data| :: data[j] <= data[k])
      && (forall j | 0 <= j < k :: data[j] < data[k])
  }

  /**
    The scan of `getDominantFrequency`: starting from `maxValue = 0, maxIndex = 0`,
    a bin replaces the maximum only when strictly greater.
   */
  function Scan(data: seq<Byte>, i: nat, maxValue: int, maxIndex: nat): (k: nat)
    requires i <= |data|
    requires maxIndex <= i && 0 <= maxValue
    requires i == 0 ==> maxIndex == 0 && maxValue == 0
    requires i > 0 ==> maxIndex < i && data[maxIndex] == maxValue
    requires forall j | 0 <= j < i :: data[j] <= maxValue
    requires forall j | 0 <= j < maxIndex :: data[j] < maxValue
    ensures IsFirstMax(data, k)
    decreases |data| - i
  {
    if i == |data| then maxIndex
    else if data[i] > maxValue then Scan(data, i + 1, data[i], i)
    else Scan(data, i + 1, maxValue, maxIndex)
  }

  /** The bin `getDominantFrequency` settles on. */
  function DominantBin(data: seq<Byte>): (k: nat)
    ensures IsFirstMax(data, k)
  {
    Scan(data, 0, 0, 0)
  }

  /**
    `getDominantFrequency`: 0 when inactive; otherwise the dominant bin of the
    buffer as last refreshed, scaled by Nyquist / `bufferLength`; the result never
    exceeds Nyquist.
   */
  function DominantFrequency(a: Analyzer): (f: real)
    requires Valid(a)
    ensures !a.active ==> f == 0.0
    ensures a.active ==> f == (DominantBin(a.data) as real * (a.sampleRate / 2.0)) / a.bufferLength as real
    ensures a.active && a.sampleRate >= 0.0 ==> 0.0 <= f <= a.sampleRate / 2.0
  {
    if !a.active then 0.0
    else
      var k := DominantBin(a.data);
      ScaledBelow(k, a.bufferLength, a.sampleRate / 2.0);
      (k as real * (a.sampleRate / 2.0)) / a.bufferLength as real
  }

  /** `k * ny / n` lies in `[0, ny]` when `k < n` and `ny` is non-negative. */
  lemma ScaledBelow(k: nat, n: nat, ny: real)
    requires k < n
    ensures ny >= 0.0 ==> 0.0 <= (k as real * ny) / n as real <= ny
  {
    if ny >= 0.0 {
      var x := k as real;
      var m := n as real;
      var q := (x * ny) / m;
      assert q * m == x * ny;
      assert x * ny <= m * ny by {
        assert (m - x) * ny >= 0.0;
      }
      assert (ny - q) * m >= 0.0;
    }
  }
}

=== FILE: basics.dfy ===
/** Optional values and results shared by every module of the model. */
module Basics {

  /** A value that may be absent (JavaScript's `null`/`undefined`). */
  datatype Option<+T> = None | Some(value: T)

  /** A value or the reason it could not be produced (a thrown `Error`). */
  datatype Result<+T, +E> = Ok(value: T) | Err(error: E)
}

=== FILE: engine.dfy ===
/**
  The morph engine driving its roster of scenes each frame: `update` advances the
  transition and then the scenes it shows, `render` draws the current scene, or
  during a transition the current scene under normal blending and the target over
  it under additive blending.
 */
module Engine {
  import opened Basics
  import opened Gl
  import Renderer
  import Scenes
  import Morph
  import Audio

  datatype Engine = Engine(morph: Morph.MorphState, scenes: seq<Scenes.Scene>)

  /** The roster the canvas builds, in this order. */
  function Roster(): (ss: seq<Scenes.Scene>)
    ensures |ss| == 4
    ensures forall i | 0 <= i < |ss| :: ss[i] == Scenes.New(ss[i].kind)
  {
    [Scenes.New(Scenes.Wave), Scenes.New(Scenes.Particle), Scenes.New(Scenes.Fractal), Scenes.New(Scenes.Lissajous)]
  }

  /** Between frames: the morph invariant over the roster, and every scene well formed. */
  predicate Valid(e: Engine)
  {
    && Morph.Inv(e.morph, |e.scenes|)
    && forall i | 0 <= i < |e.scenes| :: Scenes.WellFormed(e.scenes[i])
  }

  /** The constructor followed by `setActiveAnimation(0)`, as the canvas does it. */
  function Start(scenes: seq<Scenes.Scene>): (e: Engine)
    requires |scenes| > 0
    requires forall i | 0 <= i < |scenes| :: Scenes.WellFormed(scenes[i])
    ensures Valid(e) && e.scenes == scenes
    ensures e.morph.current == 0 && !e.morph.morphing
  {
    Engine(Morph.SetActive(Morph.Initial(), 0), scenes)
  }

  /**
    `update(dt, audio)`: the transition step first, then the scene `update` of
    exactly the scenes visible after it; every other scene keeps its state, clock
    included. Frame times come from a clock that never runs backwards.
   */
  function Update(e: Engine, dt: real, audio: Option<Audio.Feature>): (e': Engine)
    requires Valid(e) && dt >= 0.0
    ensures e'.morph == Morph.Advance(e.morph, dt)
    ensures |e'.scenes| == |e.scenes|
    ensures forall i | 0 <= i < |e.scenes| && Morph.Visible(e'.morph, i) ::
      e'.scenes[i] == Scenes.Update(e.scenes[i], dt, audio)
    ensures forall i | 0 <= i < |e.scenes| && !Morph.Visible(e'.morph, i) :: e'.scenes[i] == e.scenes[i]
    ensures Valid(e')
  {
    var m := Morph.Advance(e.morph, dt);
    Engine(m, seq(|e.scenes|, i requires 0 <= i < |e.scenes| =>
      if Morph.Visible(m, i) then Scenes.Update(e.scenes[i], dt, audio) else e.scenes[i]))
  }

  /**
    An idle engine updates its current scene alone; one mid-transition updates
    the current scene and the target and nothing else. Either way the scenes
    updated are exactly the ones the following render draws.
   */
  lemma UpdateTouchesDrawn(e: Engine, dt: real, audio: Option<Audio.Feature>, i: nat)
    requires Valid(e) && dt >= 0.0 && i < |e.scenes|
    ensures var e' := Update(e, dt, audio);
            e'.scenes[i] != e.scenes[i] ==> i in Morph.Drawn(Morph.LayersOf(e'.morph))
    ensures var e' := Update(e, dt, audio);
            i in Morph.Drawn(Morph.LayersOf(e'.morph)) ==>
              e'.scenes[i].base.time == e.scenes[i].base.time + dt
  {
    Morph.UpdatedAreDrawn(Update(e, dt, audio).morph, i);
  }

  /**
    On the frame that completes a transition only the new current scene (the old
    target) advances; the scene faded out is left as it was.
   */
  lemma CompletingTickAdvancesTarget(e: Engine, dt: real, audio: Option<Audio.Feature>, i: nat)
    requires Valid(e) && dt >= 0.0 && i < |e.scenes|
    requires e.morph.morphing && e.morph.progress + dt / e.morph.duration >= 1.0
    ensures var e' := Update(e, dt, audio);
            && !e'.morph.morphing && e'.morph.current == e.morph.target
            && (i == e.morph.target ==> e'.scenes[i] == Scenes.Update(e.scenes[i], dt, audio))
            && (i != e.morph.target ==> e'.scenes[i] == e.scenes[i])
  {
  }

  /** A scene off screen keeps its clock: time does not pass for it. */
  lemma HiddenClockStops(e: Engine, dt: real, audio: Option<Audio.Feature>, i: nat)
    requires Valid(e) && dt >= 0.0 && i < |e.scenes|
    requires !e.morph.morphing && i != e.morph.current
    ensures Update(e, dt, audio).scenes[i].base.time == e.scenes[i].base.time
  {
  }

  // ---------------------------------------------------------------------------
  // Rendering

  /** A frame's outcome: the scenes as left (lazy initialisation marks them), the renderer, and the error that ended it. */
  datatype Frame = Frame(scenes: seq<Scenes.Scene>, gl: Renderer.State, error: Option<Renderer.GlError>)

  /** A scene's render will not throw: it is initialised already or its initialisation succeeds. */
  predicate Ready(s: Scenes.Scene, d: Driver)
  {
    s.base.initialized || Scenes.InitSucceeds(s.kind, d)
  }

  /** The indices a layer plan draws name scenes of the roster. */
  predicate InRoster(l: Morph.Layers, n: nat)
  {
    match l
    case Single(i) => i < n
    case Crossfade(a, b) => a < n && b < n && a != b
  }

  /** The draw calls of a frame, given the blend current on entry. */
  function FramePlan(l: Morph.Layers, scenes: seq<Scenes.Scene>, current: BlendFunc): seq<Event>
    requires InRoster(l, |scenes|)
  {
    match l
    case Single(i) => Scenes.DrawPlan(scenes[i].kind, current)
    case Crossfade(a, b) => Scenes.DrawPlan(scenes[a].kind, Normal) + Scenes.DrawPlan(scenes[b].kind, Additive)
  }

  /** The blend switches of a frame. */
  function FrameSwitches(l: Morph.Layers, scenes: seq<Scenes.Scene>): seq<BlendFunc>
    requires InRoster(l, |scenes|)
  {
    match l
    case Single(i) => Scenes.SwitchPlan(scenes[i].kind)
    case Crossfade(a, b) =>
      [Normal] + Scenes.SwitchPlan(scenes[a].kind) + [Additive] + Scenes.SwitchPlan(scenes[b].kind) + [Normal]
  }

  /** Every scene a layer plan draws will render without throwing. */
  predicate AllReady(l: Morph.Layers, scenes: seq<Scenes.Scene>, d: Driver)
    requires InRoster(l, |scenes|)
  {
    match l
    case Single(i) => Ready(scenes[i], d)
    case Crossfade(a, b) => Ready(scenes[a], d) && Ready(scenes[b], d)
  }

  /** What a scene's render may change in it: only the lazy-initialisation, never once initialised. */
  predicate Rendered(s: Scenes.Scene, s': Scenes.Scene)
  {
    && s'.kind == s.kind && s'.base.time == s.base.time && s'.base.params == s.base.params
    && Scenes.WellFormed(s')
    && (s.base.initialized ==> s' == s)
  }

  /** The scenes are unchanged apart from the lazy-initialisation of the ones drawn. */
  predicate Marked(scenes: seq<Scenes.Scene>, scenes': seq<Scenes.Scene>, drawn: set<nat>)
  {
    && |scenes'| == |scenes|
    && (forall i | 0 <= i < |scenes| && i !in drawn :: scenes'[i] == scenes[i])
    && (forall i | 0 <= i < |scenes| :: Rendered(scenes[i], scenes'[i]))
  }

  lemma MarkNone(scenes: seq<Scenes.Scene>, drawn: set<nat>)
    requires forall i | 0 <= i < |scenes| :: Scenes.WellFormed(scenes[i])
    ensures Marked(scenes, scenes, drawn)
  {
  }

  lemma MarkOne(scenes: seq<Scenes.Scene>, i: nat, s': Scenes.Scene)
    requires i < |scenes| && Rendered(scenes[i], s')
    requires forall j | 0 <= j < |scenes| :: Scenes.WellFormed(scenes[j])
    ensures Marked(scenes, scenes[i := s'], {i})
  {
  }

  lemma MarkCompose(s0: seq<Scenes.Scene>, s1: seq<Scenes.Scene>, s2: seq<Scenes.Scene>, a: set<nat>, b: set<nat>)
    requires Marked(s0, s1, a) && Marked(s1, s2, b)
    ensures Marked(s0, s2, a + b)
  {
    forall i | 0 <= i < |s0| ensures Rendered(s0[i], s2[i]) {
      assert Rendered(s0[i], s1[i]) && Rendered(s1[i], s2[i]);
    }
  }

  /**
    `render`: it reads the morph state only through its layer plan, so neither the
    progress nor the eased value it derives from it affects what is drawn. A single
    layer is the current scene's render. A crossfade enables blending and sets the
    normal blend function, renders the current scene, switches to additive, renders
    the target, and returns to normal. A throwing scene render ends the frame there,
    with the earlier scene's initialisation kept.
   */
  method Render(l: Morph.Layers, scenes: seq<Scenes.Scene>, r: Renderer.State, d: Driver) returns (f: Frame)
    requires InRoster(l, |scenes|)
    requires forall i | 0 <= i < |scenes| :: Scenes.WellFormed(scenes[i])
    ensures Extends(r.log, f.gl.log)
    ensures Marked(scenes, f.scenes, Morph.Drawn(l))
    ensures f.error.None? <==> AllReady(l, scenes, d)
    ensures f.error.None? ==> Draws(Emitted(r.log, f.gl.log)) == FramePlan(l, scenes, r.blend)
    ensures f.error.None? ==> Switches(Emitted(r.log, f.gl.log)) == FrameSwitches(l, scenes)
    ensures f.error.None? && l.Crossfade? ==> f.gl.blend == Normal && f.gl.blendEnabled
    ensures f.error.None? && r.blend == Normal ==> f.gl.blend == Normal
    ensures Renderer.Valid(r) ==> Renderer.Valid(f.gl)
  {
    match l
    case Single(i) =>
      f := RenderSingle(i, scenes, r, d);
    case Crossfade(a, b) =>
      f := RenderCrossfade(a, b, scenes, r, d);
  }

  /** The idle frame: the current scene's render alone. */
  method RenderSingle(i: nat, scenes: seq<Scenes.Scene>, r: Renderer.State, d: Driver) returns (f: Frame)
    requires i < |scenes|
    requires forall j | 0 <= j < |scenes| :: Scenes.WellFormed(scenes[j])
    ensures Extends(r.log, f.gl.log)
    ensures Marked(scenes, f.scenes, {i})
    ensures f.error.None? <==> Ready(scenes[i], d)
    ensures f.error.None? ==> Draws(Emitted(r.log, f.gl.log)) == Scenes.DrawPlan(scenes[i].kind, r.blend)
    ensures f.error.None? ==> Switches(Emitted(r.log, f.gl.log)) == Scenes.SwitchPlan(scenes[i].kind)
    ensures r.blend == Normal ==> f.gl.blend == Normal
    ensures f.gl.blendEnabled == r.blendEnabled
    ensures Renderer.Valid(r) ==> Renderer.Valid(f.gl)
  {
    var o := Scenes.Render(scenes[i], r, d);
    if o.Threw? {
      MarkNone(scenes, {i});
      return Frame(scenes, o.gl, Some(o.error));
    }
    MarkOne(scenes, i, o.value);
    return Frame(scenes[i := o.value], o.gl, None);
  }

  /** The first half of a transition frame: blending on, the normal blend function, the current scene. */
  method Underlay(a: nat, scenes: seq<Scenes.Scene>, r: Renderer.State, d: Driver) returns (f: Frame)
    requires a < |scenes|
    requires forall j | 0 <= j < |scenes| :: Scenes.WellFormed(scenes[j])
    ensures Extends(r.log, f.gl.log)
    ensures Marked(scenes, f.scenes, {a})
    ensures f.error.None? <==> Ready(scenes[a], d)
    ensures f.error.None? ==> Draws(Emitted(r.log, f.gl.log)) == Scenes.DrawPlan(scenes[a].kind, Normal)
    ensures f.error.None? ==> Switches(Emitted(r.log, f.gl.log)) == [Normal] + Scenes.SwitchPlan(scenes[a].kind)
    ensures f.gl.blend == Normal && f.gl.blendEnabled
    ensures Renderer.Valid(r) ==> Renderer.Valid(f.gl)
  {
    var r1 := Renderer.NormalBlending(Renderer.EnableBlending(r));
    assert Emitted(r.log, r1.log) == [EnableBlend, SetBlend(Normal)];
    var g := RenderSingle(a, scenes, r1, d);
    Consecutive(r.log, r1.log, g.gl.log);
    f := g;
  }

  /** The second half of a transition frame: additive blending, the target scene, back to normal. */
  method Overlay(b: nat, scenes: seq<Scenes.Scene>, r: Renderer.State, d: Driver) returns (f: Frame)
    requires b < |scenes|
    requires forall j | 0 <= j < |scenes| :: Scenes.WellFormed(scenes[j])
    ensures Extends(r.log, f.gl.log)
    ensures Marked(scenes, f.scenes, {b})
    ensures f.error.None? <==> Ready(scenes[b], d)
    ensures f.error.None? ==> Draws(Emitted(r.log, f.gl.log)) == Scenes.DrawPlan(scenes[b].kind, Additive)
    ensures f.error.None? ==> Switches(Emitted(r.log, f.gl.log)) == [Additive] + Scenes.SwitchPlan(scenes[b].kind) + [Normal]
    ensures f.error.None? ==> f.gl.blend == Normal
    ensures f.gl.blendEnabled == r.blendEnabled
    ensures Renderer.Valid(r) ==> Renderer.Valid(f.gl)
  {
    var r1 := Renderer.AdditiveBlending(r);
    assert Emitted(r.log, r1.log) == [SetBlend(Additive)];
    var g := RenderSingle(b, scenes, r1, d);
    Consecutive(r.log, r1.log, g.gl.log);
    if g.error.Some? {
      return g;
    }
    var r2 := Renderer.NormalBlending(g.gl);
    assert Emitted(g.gl.log, r2.log) == [SetBlend(Normal)];
    Consecutive(r.log, g.gl.log, r2.log);
    f := g.(gl := r2);
  }

  /** The transition frame: the current scene under normal blending, then the target under additive. */
  method RenderCrossfade(a: nat, b: nat, scenes: seq<Scenes.Scene>, r: Renderer.State, d: Driver) returns (f: Frame)
    requires a < |scenes| && b < |scenes| && a != b
    requires forall j | 0 <= j < |scenes| :: Scenes.WellFormed(scenes[j])
    ensures Extends(r.log, f.gl.log)
    ensures Marked(scenes, f.scenes, {a, b})
    ensures f.error.None? <==> Ready(scenes[a], d) && Ready(scenes[b], d)
    ensures f.error.None? ==>
      Draws(Emitted(r.log, f.gl.log)) == Scenes.DrawPlan(scenes[a].kind, Normal) + Scenes.DrawPlan(scenes[b].kind, Additive)
    ensures f.error.None? ==>
      Switches(Emitted(r.log, f.gl.log)) ==
        [Normal] + Scenes.SwitchPlan(scenes[a].kind) + [Additive] + Scenes.SwitchPlan(scenes[b].kind) + [Normal]
    ensures f.error.None? ==> f.gl.blend == Normal && f.gl.blendEnabled
    ensures Renderer.Valid(r) ==> Renderer.Valid(f.gl)
  {
    var u := Underlay(a, scenes, r, d);
    if u.error.Some? {
      MarkCompose(scenes, u.scenes, u.scenes, {a}, {b});
      return u;
    }
    assert u.scenes[b] == scenes[b];
    var v := Overlay(b, u.scenes, u.gl, d);
    MarkCompose(scenes, u.scenes, v.scenes, {a}, {b});
    if v.error.None? {
      CrossfadeJoin(r.log, u.gl.log, v.gl.log, scenes[a].kind, scenes[b].kind);
    } else {
      ExtendsTrans(r.log, u.gl.log, v.gl.log);
    }
    f := v;
  }

  /** The two halves of a transition frame put together. */
  lemma CrossfadeJoin(t0: seq<Event>, t1: seq<Event>, t2: seq<Event>, ka: Scenes.Kind, kb: Scenes.Kind)
    requires Extends(t0, t1) && Extends(t1, t2)
    requires Draws(Emitted(t0, t1)) == Scenes.DrawPlan(ka, Normal)
    requires Switches(Emitted(t0, t1)) == [Normal] + Scenes.SwitchPlan(ka)
    requires Draws(Emitted(t1, t2)) == Scenes.DrawPlan(kb, Additive)
    requires Switches(Emitted(t1, t2)) == [Additive] + Scenes.SwitchPlan(kb) + [Normal]
    ensures Extends(t0, t2)
    ensures Draws(Emitted(t0, t2)) == Scenes.DrawPlan(ka, Normal) + Scenes.DrawPlan(kb, Additive)
    ensures Switches(Emitted(t0, t2)) == [Normal] + Scenes.SwitchPlan(ka) + [Additive] + Scenes.SwitchPlan(kb) + [Normal]
  {
    Consecutive(t0, t1, t2);
    assert [Normal] + Scenes.SwitchPlan(ka) + ([Additive] + Scenes.SwitchPlan(kb) + [Normal])
        == [Normal] + Scenes.SwitchPlan(ka) + [Additive] + Scenes.SwitchPlan(kb) + [Normal];
  }

  /**
    One frame of the canvas loop: `update`, then `render` of the layer plan of the
    advanced morph state. The scenes rendered, and returned, are the updated ones:
    every drawn scene's clock has advanced by `dt`, and a scene not drawn is left
    exactly as it was.
   */
  method Step(e: Engine, dt: real, audio: Option<Audio.Feature>, r: Renderer.State, d: Driver) returns (e': Engine, f: Frame)
    requires Valid(e) && dt >= 0.0
    ensures e'.morph == Morph.Advance(e.morph, dt) && e'.scenes == f.scenes
    ensures Marked(Update(e, dt, audio).scenes, e'.scenes, Morph.Drawn(Morph.LayersOf(e'.morph)))
    ensures forall i | 0 <= i < |e.scenes| ::
      if i in Morph.Drawn(Morph.LayersOf(e'.morph)) then e'.scenes[i].base.time == e.scenes[i].base.time + dt
      else e'.scenes[i] == e.scenes[i]
    ensures Extends(r.log, f.gl.log)
    ensures f.error.None? <==> AllReady(Morph.LayersOf(e'.morph), Update(e, dt, audio).scenes, d)
    ensures f.error.None? ==>
      Draws(Emitted(r.log, f.gl.log)) == FramePlan(Morph.LayersOf(e'.morph), Update(e, dt, audio).scenes, r.blend)
    ensures f.error.None? ==>
      Switches(Emitted(r.log, f.gl.log)) == FrameSwitches(Morph.LayersOf(e'.morph), Update(e, dt, audio).scenes)
    ensures f.error.None? && r.blend == Normal ==> f.gl.blend == Normal
    ensures Valid(e')
    ensures Renderer.Valid(r) ==> Renderer.Valid(f.gl)
  {
    var u := Update(e, dt, audio);
    var l := Morph.LayersOf(u.morph);
    f := Render(l, u.scenes, r, d);
    e' := Engine(u.morph, f.scenes);
    forall i | 0 <= i < |e.scenes|
      ensures if i in Morph.Drawn(l) then e'.scenes[i].base.time == e.scenes[i].base.time + dt
              else e'.scenes[i] == e.scenes[i]
    {
      UpdateTouchesDrawn(e, dt, audio, i);
    }
  }

  // ---------------------------------------------------------------------------
  // The shuffle control

  /**
    The canvas's shuffle button: the index after the one it last chose, modulo the
    roster size, and a two-second transition toward it. The control keeps its own
    index, apart from the morph state.
   */
  function Shuffle(e: Engine, chosen: nat): (r: (Engine, nat))
    requires |e.scenes| > 0
    ensures r.1 < |e.scenes| && r.1 == (chosen + 1) % |e.scenes|
    ensures r.1 == e.morph.current ==> r.0 == e
    ensures r.1 != e.morph.current ==>
      && r.0.morph.morphing && r.0.morph.current == e.morph.current && r.0.morph.target == r.1
      && r.0.morph.progress == 0.0 && r.0.morph.duration == 2.0
    ensures r.0.scenes == e.scenes
    ensures Valid(e) ==> Valid(r.0)
  {
    var next := (chosen + 1) % |e.scenes|;
    (e.(morph := Morph.MorphTo(e.morph, next, Morph.DefaultDuration)), next)
  }

  /**
    From an idle engine showing the scene the control last chose, a press starts a
    two-second transition from zero to the next scene of the roster, and both
    scenes are drawn until it ends.
   */
  lemma ShuffleFromIdle(e: Engine, chosen: nat)
    requires Valid(e) && |e.scenes| > 1
    requires !e.morph.morphing && chosen == e.morph.current
    ensures var (e', next) := Shuffle(e, chosen);
            && next == (chosen + 1) % |e.scenes| && next != chosen
            && e'.morph.morphing && e'.morph.target == next && e'.morph.current == chosen
            && e'.morph.progress == 0.0 && e'.morph.duration == Morph.DefaultDuration
            && Morph.LayersOf(e'.morph) == Morph.Crossfade(chosen, next)
  {
  }

  /**
    The control's index and the morph state drift apart: a press whose next index
    is the scene still current (a transition away from it was restarted) is
    ignored by the engine, which keeps heading for its old target, while the
    control moves on.
   */
  lemma ShufflePressIgnored(e: Engine, chosen: nat)
    requires Valid(e) && |e.scenes| > 0
    requires (chosen + 1) % |e.scenes| == e.morph.current
    ensures Shuffle(e, chosen).0 == e
    ensures Shuffle(e, chosen).1 == e.morph.current
  {
  }

  /** The canvas's start-up state is valid and shows the wave scene alone. */
  lemma StartShowsWave()
    ensures var e := Start(Roster());
            && Valid(e) && Morph.LayersOf(e.morph) == Morph.Single(0)
            && e.scenes[0].kind == Scenes.Wave
  {
    var ss := Roster();
    forall i | 0 <= i < |ss| ensures Scenes.WellFormed(ss[i]) {
      assert ss[i] == Scenes.New(ss[i].kind);
    }
  }
}

=== FILE: gl.dfy ===
/**
  The WebGL2 context as the model sees it: opaque object handles, the events a
  frame emits, and the driver's answers the model does not compute (compile and
  link status, uniform locations, how a program object prints as text).
 */
module Gl {
  import opened Basics

  /** Identity of a GL object (shader, program or buffer) handed out by the context. */
  type Handle = nat

  /** A uniform location returned by the driver; opaque to the model. */
  type Location = nat

  datatype Stage = VertexStage | FragmentStage

  /**
    A shader's source text. GLSL bodies are opaque: a source is identified only by
    the program it belongs to and its stage.
   */
  datatype Source = Source(program: string, stage: Stage)

  datatype Factor = SrcAlpha | OneMinusSrcAlpha | One

  /** The (source, destination) pair last given to `blendFunc`. */
  datatype BlendFunc = BlendFunc(src: Factor, dst: Factor)

  /** Standard alpha blending. */
  const Normal := BlendFunc(SrcAlpha, OneMinusSrcAlpha)

  /** Additive ("glow") blending. */
  const Additive := BlendFunc(SrcAlpha, One)

  datatype DrawMode = Triangles | Points | LineStrip

  /** Which `uniform*` entry point a write went through. */
  datatype UniformKind = Float1 | Float2 | Float3 | Float4 | Int1 | Matrix4(transpose: bool)

  /**
    One call on the GL context. A draw records the blend function in effect when
    it was issued, so that "drawn under additive blending" is a fact of the trace.
   */
  datatype Event =
    | EnableBlend
    | SetBlend(func: BlendFunc)
    | CompileShader(shader: Handle, stage: Stage)
    | DeleteShader(shader: Handle)
    | LinkProgram(program: Handle)
    | DeleteProgram(program: Handle)
    | UploadBuffer(buffer: Handle, data: seq<real>)
    | DeleteBuffer(buffer: Handle)
    | UseProgram(program: Handle)
    | BindArrayBuffer(buffer: Handle)
    | UniformWrite(location: Location, kind: UniformKind, values: seq<real>)
    | Draw(mode: DrawMode, first: int, count: int, blend: BlendFunc)
    | Viewport(width: int, height: int)

  /**
    The driver's answers. `show` is how a program object turns into text inside a
    JavaScript template string; nothing requires it to be injective (browsers print
    every program as the same string).
   */
  datatype Driver = Driver(
    compiles: Source -> bool,
    links: (Source, Source) -> bool,
    locate: (Handle, string) -> Option<Location>,
    show: Handle -> string)

  /** The text every browser produces for a `WebGLProgram` in a template string. */
  const ProgramText: string := "[object WebGLProgram]"

  /** A driver whose stringification is the browsers': the same text for every program. */
  function BrowserDriver(compiles: Source -> bool, links: (Source, Source) -> bool,
                         locate: (Handle, string) -> Option<Location>): (d: Driver)
    ensures forall p, q :: d.show(p) == d.show(q)
  {
    Driver(compiles, links, locate, (p: Handle) => ProgramText)
  }

  /** The draw calls of a trace, in order. */
  function Draws(events: seq<Event>): (ds: seq<Event>)
    ensures |ds| <= |events|
    ensures forall i | 0 <= i < |ds| :: ds[i].Draw?
  {
    if events == [] then []
    else (if events[0].Draw? then [events[0]] else []) + Draws(events[1..])
  }

  /** The blend functions a trace switches to, in order. */
  function Switches(events: seq<Event>): (fs: seq<BlendFunc>)
    ensures |fs| <= |events|
  {
    if events == [] then []
    else (if events[0].SetBlend? then [events[0].func] else []) + Switches(events[1..])
  }

  /** The buffer uploads of a trace, in order. */
  function Uploads(events: seq<Event>): (us: seq<Event>)
    ensures |us| <= |events|
    ensures forall i | 0 <= i < |us| :: us[i].UploadBuffer?
  {
    if events == [] then []
    else (if events[0].UploadBuffer? then [events[0]] else []) + Uploads(events[1..])
  }

  /** What the uniform writes of a trace send, in order: the entry point and the values. */
  function Payloads(events: seq<Event>): (ps: seq<(UniformKind, seq<real>)>)
    ensures |ps| <= |events|
  {
    if events == [] then []
    else (if events[0].UniformWrite? then [(events[0].kind, events[0].values)] else []) + Payloads(events[1..])
  }

  lemma {:induction false} PayloadsAppend(a: seq<Event>, b: seq<Event>)
    ensures Payloads(a + b) == Payloads(a) + Payloads(b)
  {
    if a == [] {
      assert a + b == b;
    } else {
      assert (a + b)[0] == a[0];
      assert (a + b)[1..] == a[1..] + b;
      PayloadsAppend(a[1..], b);
    }
  }

  /** A trace without uniform writes sends no values. */
  lemma {:induction false} NoPayloads(events: seq<Event>)
    requires forall i | 0 <= i < |events| :: !events[i].UniformWrite?
    ensures Payloads(events) == []
  {
    if events != [] {
      NoPayloads(events[1..]);
    }
  }

  lemma {:induction false} UploadsAppend(a: seq<Event>, b: seq<Event>)
    ensures Uploads(a + b) == Uploads(a) + Uploads(b)
  {
    if a == [] {
      assert a + b == b;
    } else {
      assert (a + b)[0] == a[0];
      assert (a + b)[1..] == a[1..] + b;
      UploadsAppend(a[1..], b);
    }
  }

  /** A trace that uploads no buffer. */
  predicate NoUploads(events: seq<Event>)
  {
    forall i | 0 <= i < |events| :: !events[i].UploadBuffer?
  }

  lemma {:induction false} NoUploadsHasNone(events: seq<Event>)
    requires NoUploads(events)
    ensures Uploads(events) == []
  {
    if events != [] {
      NoUploadsHasNone(events[1..]);
    }
  }

  /** A trace that neither draws nor changes the blend function. */
  predicate Quiet(events: seq<Event>)
  {
    forall i | 0 <= i < |events| :: !events[i].Draw? && !events[i].SetBlend?
  }

  lemma {:induction false} DrawsAppend(a: seq<Event>, b: seq<Event>)
    ensures Draws(a + b) == Draws(a) + Draws(b)
    ensures Switches(a + b) == Switches(a) + Switches(b)
  {
    if a == [] {
      assert a + b == b;
    } else {
      assert (a + b)[0] == a[0];
      assert (a + b)[1..] == a[1..] + b;
      DrawsAppend(a[1..], b);
    }
  }

  lemma {:induction false} QuietHasNoDraws(events: seq<Event>)
    requires Quiet(events)
    ensures Draws(events) == []
    ensures Switches(events) == []
  {
    if events != [] {
      QuietHasNoDraws(events[1..]);
    }
  }

  /** A trace of uniform writes only. */
  predicate OnlyWrites(events: seq<Event>)
  {
    forall i | 0 <= i < |events| :: events[i].UniformWrite?
  }

  lemma OnlyWritesQuiet(events: seq<Event>)
    requires OnlyWrites(events)
    ensures Quiet(events) && NoUploads(events)
  {
  }

  lemma OnlyWritesAppend(a: seq<Event>, b: seq<Event>)
    requires OnlyWrites(a) && OnlyWrites(b)
    ensures OnlyWrites(a + b)
  {
    assert forall i | |a| <= i < |a + b| :: (a + b)[i] == b[i - |a|];
  }

  /** `before` is a prefix of `after`: the trace only grew. */
  predicate Extends(before: seq<Event>, after: seq<Event>)
  {
    |before| <= |after| && after[..|before|] == before
  }

  /** What was appended to a trace. */
  function Emitted(before: seq<Event>, after: seq<Event>): (e: seq<Event>)
    requires Extends(before, after)
    ensures after == before + e
  {
    after[|before|..]
  }

  /** Appending `e` extends a trace by exactly `e`. */
  lemma Appended(a: seq<Event>, e: seq<Event>)
    ensures Extends(a, a + e) && Emitted(a, a + e) == e
  {
    assert (a + e)[..|a|] == a;
  }

  lemma NoUploadsAppend(a: seq<Event>, b: seq<Event>)
    requires NoUploads(a) && NoUploads(b)
    ensures NoUploads(a + b)
  {
    assert forall i | |a| <= i < |a + b| :: (a + b)[i] == b[i - |a|];
  }

  /** The draws, switches and uploads of two consecutive steps are those of each, in order. */
  lemma Consecutive(a: seq<Event>, b: seq<Event>, c: seq<Event>)
    requires Extends(a, b) && Extends(b, c)
    ensures Extends(a, c)
    ensures Draws(Emitted(a, c)) == Draws(Emitted(a, b)) + Draws(Emitted(b, c))
    ensures Switches(Emitted(a, c)) == Switches(Emitted(a, b)) + Switches(Emitted(b, c))
    ensures NoUploads(Emitted(a, b)) && NoUploads(Emitted(b, c)) ==> NoUploads(Emitted(a, c))
  {
    ExtendsTrans(a, b, c);
    DrawsAppend(Emitted(a, b), Emitted(b, c));
    if NoUploads(Emitted(a, b)) && NoUploads(Emitted(b, c)) {
      NoUploadsAppend(Emitted(a, b), Emitted(b, c));
    }
  }

  /** Growth composes: what two steps append is what the first appended, then the second. */
  lemma ExtendsTrans(a: seq<Event>, b: seq<Event>, c: seq<Event>)
    requires Extends(a, b) && Extends(b, c)
    ensures Extends(a, c)
    ensures Emitted(a, c) == Emitted(a, b) + Emitted(b, c)
  {
    assert c == a + (Emitted(a, b) + Emitted(b, c));
  }
}

=== FILE: morph.dfy ===
/**
  The morph engine's own state machine: which scene is current, which one a
  transition is heading to, how far it has got, and the easing curve it defines.
  The scenes themselves are driven by the `Engine` module.
 */
module Morph {

  datatype MorphState = MorphState(
    current: nat,
    target: nat,
    progress: real,
    duration: real,
    morphing: bool)

  /** The transition length the shuffle control asks for, in seconds. */
  const DefaultDuration: real := 2.0

  /** The constructor: scene 0, no transition, zero progress and zero duration. */
  function Initial(): (s: MorphState)
    ensures s.current == 0 && s.target == 0 && !s.morphing
    ensures s.progress == 0.0 && s.duration == 0.0
  {
    MorphState(0, 0, 0.0, 0.0, false)
  }

  /**
    What holds between calls for a roster of `n` scenes: both indices name a scene;
    progress is in [0, 1]; a running transition has a positive duration, has not reached 1 and heads
    somewhere else; an idle engine's progress is 0 (never started) or 1 (finished).
   */
  predicate Inv(s: MorphState, n: nat)
  {
    && s.current < n && s.target < n
    && 0.0 <= s.progress <= 1.0
    && (s.morphing ==> s.duration > 0.0 && s.progress < 1.0 && s.current != s.target)
    && (!s.morphing ==> s.target == s.current && (s.progress == 0.0 || s.progress == 1.0))
  }

  /** `setActiveAnimation(i)`: jump to scene `i`, abandoning any transition; the duration is kept. */
  function SetActive(s: MorphState, i: nat): (s': MorphState)
    ensures s'.current == i && s'.target == i && !s'.morphing && s'.progress == 0.0
    ensures s'.duration == s.duration
  {
    MorphState(i, i, 0.0, s.duration, false)
  }

  /**
    `morphTo(i, duration)`: a request for the scene already current is ignored;
    any other request (re)starts a transition from zero toward `i`, replacing a
    transition under way.
   */
  function MorphTo(s: MorphState, i: nat, duration: real): (s': MorphState)
    ensures i == s.current ==> s' == s
    ensures i != s.current ==>
      s' == MorphState(s.current, i, 0.0, duration, true)
  {
    if i == s.current then s
    else s.(target := i, duration := duration, progress := 0.0, morphing := true)
  }

  /**
    The transition part of `update(dt)`: while morphing, progress grows by
    `dt / duration`; on reaching 1 it stops at 1, the target becomes current and
    the transition ends. An idle engine is left alone.
   */
  function Advance(s: MorphState, dt: real): (s': MorphState)
    requires s.morphing ==> s.duration > 0.0
    ensures !s.morphing ==> s' == s
    ensures s.morphing && s.progress + dt / s.duration < 1.0 ==>
      s' == s.(progress := s.progress + dt / s.duration)
    ensures s.morphing && s.progress + dt / s.duration >= 1.0 ==> s' == Finished(s)
  {
    if !s.morphing then s
    else
      var p := s.progress + dt / s.duration;
      if p >= 1.0 then s.(progress := 1.0, current := s.target, morphing := false)
      else s.(progress := p)
  }

  /** A transition brought to its end: the target is current and progress is 1. */
  function Finished(s: MorphState): MorphState
  {
    MorphState(s.target, s.target, 1.0, s.duration, false)
  }

  /** The scenes `update` advances, judged after the transition step: the current one and, while morphing, the target. */
  predicate Visible(s: MorphState, i: nat)
  {
    i == s.current || (s.morphing && i == s.target)
  }

  /** What `render` draws: the current scene alone, or the current scene and then the target over it. */
  datatype Layers = Single(index: nat) | Crossfade(from: nat, to: nat)

  function LayersOf(s: MorphState): (l: Layers)
    ensures l.Single? <==> !s.morphing
    ensures l.Single? ==> l.index == s.current
    ensures l.Crossfade? ==> l.from == s.current && l.to == s.target
  {
    if s.morphing then Crossfade(s.current, s.target) else Single(s.current)
  }

  /** The scene indices a layer plan draws. */
  function Drawn(l: Layers): set<nat>
  {
    match l
    case Single(i) => {i}
    case Crossfade(a, b) => {a, b}
  }

  // ---------------------------------------------------------------------------
  // Properties of the state machine

  /**
    Every public operation keeps the invariant: a new transition needs a positive
    duration, and frame times are never negative.
   */
  lemma InvPreserved(s: MorphState, n: nat, i: nat, duration: real, dt: real)
    requires Inv(s, n) && i < n && duration > 0.0 && dt >= 0.0
    ensures Inv(SetActive(s, i), n)
    ensures Inv(MorphTo(s, i, duration), n)
    ensures Inv(Advance(s, dt), n)
  {
  }

  lemma InitialInv(n: nat)
    requires n > 0
    ensures Inv(Initial(), n)
  {
  }

  /** What `update` advances is exactly what `render` then draws. */
  lemma UpdatedAreDrawn(s: MorphState, i: nat)
    ensures Visible(s, i) <==> i in Drawn(LayersOf(s))
  {
  }

  /** `render` reads neither the progress nor the duration: the eased value it computes is never used. */
  lemma LayersIgnoreProgress(s: MorphState, p: real, duration: real)
    ensures LayersOf(s.(progress := p, duration := duration)) == LayersOf(s)
  {
  }

  /** `n` frames of the same length. */
  function Run(s: MorphState, dt: real, n: nat): (s': MorphState)
    requires s.morphing ==> s.duration > 0.0
    ensures s'.morphing ==> s.morphing && s'.duration == s.duration
    decreases n
  {
    if n == 0 then s else Advance(Run(s, dt, n - 1), dt)
  }

  /** The progress after `n` increments of `q` from `p`. */
  function Reach(p: real, q: real, n: nat): real
    decreases n
  {
    if n == 0 then p else Reach(p, q, n - 1) + q
  }

  lemma {:induction false} ReachLinear(p: real, q: real, n: nat)
    ensures Reach(p, q, n) == p + (n as real) * q
    decreases n
  {
    if n > 0 {
      ReachLinear(p, q, n - 1);
      assert (n as real) * q == ((n - 1) as real) * q + q;
    }
  }

  /**
    A transition under way with frames of a fixed non-negative length: after `n`
    frames the progress is the starting one plus `n` increments of `dt / duration`
    while that stays below 1, and the transition has finished once it reaches 1.
   */
  lemma {:induction false} RunMorph(s: MorphState, dt: real, n: nat)
    requires s.morphing && s.duration > 0.0 && s.progress < 1.0 && dt >= 0.0
    ensures var p := Reach(s.progress, dt / s.duration, n);
            && (p < 1.0 ==> Run(s, dt, n) == s.(progress := p))
            && (p >= 1.0 ==> Run(s, dt, n) == Finished(s))
    decreases n
  {
    if n > 0 {
      var q := dt / s.duration;
      var prev := Reach(s.progress, q, n - 1);
      RunMorph(s, dt, n - 1);
      var r := Run(s, dt, n - 1);
      if prev >= 1.0 {
        assert r == Finished(s);
        assert q >= 0.0;
      } else {
        assert r == s.(progress := prev);
      }
    }
  }

  /**
    The shuffle control's transition: at 2 seconds and ten frames a second (0.1 s
    each) the target is still fading in after nineteen frames and has taken over
    after twenty.
   */
  lemma TwentyFramesFinish(s: MorphState, i: nat)
    requires !s.morphing && i != s.current
    ensures var m := MorphTo(s, i, DefaultDuration);
            && Run(m, 0.1, 19).morphing && Run(m, 0.1, 19).current == s.current
            && Run(m, 0.1, 20) == MorphState(i, i, 1.0, DefaultDuration, false)
  {
    var m := MorphTo(s, i, DefaultDuration);
    RunMorph(m, 0.1, 19);
    RunMorph(m, 0.1, 20);
    ReachLinear(0.0, 0.1 / DefaultDuration, 19);
    ReachLinear(0.0, 0.1 / DefaultDuration, 20);
  }

  /** One `update` per frame length in `dts`, in order. */
  function RunFrames(s: MorphState, dts: seq<real>): (s': MorphState)
    requires s.morphing ==> s.duration > 0.0
    ensures s'.morphing ==> s.morphing && s'.duration == s.duration
    decreases |dts|
  {
    if dts == [] then s else RunFrames(Advance(s, dts[0]), dts[1..])
  }

  /** The sum of a sequence of frame lengths. */
  function Sum(dts: seq<real>): real
    decreases |dts|
  {
    if dts == [] then 0.0 else dts[0] + Sum(dts[1..])
  }

  /** The progress a run of frames adds: each frame's length over the duration. */
  function Gain(dts: seq<real>, duration: real): real
    requires duration > 0.0
    decreases |dts|
  {
    if dts == [] then 0.0 else dts[0] / duration + Gain(dts[1..], duration)
  }

  lemma {:induction false} GainIsSumOver(dts: seq<real>, duration: real)
    requires duration > 0.0
    ensures Gain(dts, duration) == Sum(dts) / duration
    decreases |dts|
  {
    if dts != [] {
      GainIsSumOver(dts[1..], duration);
      DivAdd(dts[0], Sum(dts[1..]), duration);
    }
  }

  lemma DivAdd(a: real, b: real, d: real)
    requires d > 0.0
    ensures a / d + b / d == (a + b) / d
  {
  }

  /** An idle engine stays as it is, whatever the frames. */
  lemma {:induction false} IdleStays(s: MorphState, dts: seq<real>)
    requires !s.morphing
    ensures RunFrames(s, dts) == s
    decreases |dts|
  {
    if dts != [] {
      IdleStays(Advance(s, dts[0]), dts[1..]);
    }
  }

  /**
    Frames whose increments reach the remaining distance to 1 finish the
    transition, and what is left of them changes nothing.
   */
  lemma {:induction false} GainFinishes(s: MorphState, dts: seq<real>)
    requires s.morphing && s.duration > 0.0
    requires s.progress + Gain(dts, s.duration) >= 1.0
    requires s.progress < 1.0
    ensures RunFrames(s, dts) == Finished(s)
    decreases |dts|
  {
    if dts != [] {
      var s1 := Advance(s, dts[0]);
      if s.progress + dts[0] / s.duration >= 1.0 {
        IdleStays(s1, dts[1..]);
      } else {
        GainFinishes(s1, dts[1..]);
      }
    }
  }

  /**
    Non-negative frame lengths adding up to at least what is left of the
    transition (`duration * (1 - progress)`) always complete it: the target is
    current, progress is 1 and the engine is idle.
   */
  lemma FramesComplete(s: MorphState, dts: seq<real>)
    requires s.morphing && s.duration > 0.0 && s.progress < 1.0
    requires Sum(dts) >= s.duration * (1.0 - s.progress)
    ensures RunFrames(s, dts) == MorphState(s.target, s.target, 1.0, s.duration, false)
  {
    GainIsSumOver(dts, s.duration);
    DivAtLeast(Sum(dts), s.duration, 1.0 - s.progress);
    GainFinishes(s, dts);
  }

  lemma DivAtLeast(x: real, d: real, q: real)
    requires d > 0.0 && x >= d * q
    ensures x / d >= q
  {
  }

  // ---------------------------------------------------------------------------
  // Easing

  /**
    `easeInOutCubic(t)`: `4t³` below one half, `1 - (2 - 2t)³ / 2` from one half on.
    On [0, 1] the eased value stays in [0, 1], below one half exactly on the first half.
   */
  function Ease(t: real): (e: real)
    ensures 0.0 <= t <= 1.0 ==> 0.0 <= e <= 1.0 && (e < 0.5 <==> t < 0.5)
  {
    if t < 0.5 then
      CubeBelowHalf(t);
      4.0 * Cube(t)
    else
      CubeUnit(-2.0 * t + 2.0);
      1.0 - Cube(-2.0 * t + 2.0) / 2.0
  }

  /** The cube, as the easing curve raises to the third power. */
  function Cube(x: real): real { x * x * x }

  /** The cube never goes back on the non-negative reals, and strictly grows there. */
  lemma CubeMonotone(a: real, b: real)
    requires 0.0 <= a <= b
    ensures Cube(a) <= Cube(b)
    ensures a < b ==> Cube(a) < Cube(b)
  {
  }

  lemma CubeUnit(x: real)
    ensures 0.0 <= x <= 1.0 ==> 0.0 <= Cube(x) <= 1.0
  {
    if 0.0 <= x <= 1.0 {
      CubeMonotone(0.0, x);
      CubeMonotone(x, 1.0);
      assert Cube(0.0) == 0.0 && Cube(1.0) == 1.0;
    }
  }

  lemma CubeBelowHalf(t: real)
    ensures 0.0 <= t < 0.5 ==> 0.0 <= Cube(t) < 0.125
  {
    if 0.0 <= t < 0.5 {
      CubeMonotone(0.0, t);
      CubeMonotone(t, 0.5);
      assert Cube(0.0) == 0.0 && Cube(0.5) == 0.125;
    }
  }

  /** The easing curve starts at 0, passes one half at one half, ends at 1. */
  lemma EaseFixedPoints()
    ensures Ease(0.0) == 0.0 && Ease(0.5) == 0.5 && Ease(1.0) == 1.0
  {
    assert Cube(0.0) == 0.0 && Cube(1.0) == 1.0;
    assert -2.0 * 0.5 + 2.0 == 1.0;
    assert -2.0 * 1.0 + 2.0 == 0.0;
  }

  /** The easing curve never goes back on [0, 1]. */
  lemma EaseMonotone(a: real, b: real)
    requires 0.0 <= a <= b <= 1.0
    ensures Ease(a) <= Ease(b)
  {
    assert 0.0 <= Ease(a) <= 1.0 && 0.0 <= Ease(b) <= 1.0;
    if b < 0.5 {
      CubeMonotone(a, b);
    } else if a >= 0.5 {
      CubeMonotone(-2.0 * b + 2.0, -2.0 * a + 2.0);
    }
  }

  /** The curve is point-symmetric about (½, ½): easing in mirrors easing out. */
  lemma EaseSymmetric(t: real)
    requires 0.0 <= t <= 1.0
    ensures Ease(1.0 - t) == 1.0 - Ease(t)
  {
    if t < 0.5 {
      assert -2.0 * (1.0 - t) + 2.0 == 2.0 * t;
      CubeDouble(t);
    } else {
      assert -2.0 * t + 2.0 == 2.0 * (1.0 - t);
      CubeDouble(1.0 - t);
    }
  }

  lemma CubeDouble(x: real)
    ensures Cube(2.0 * x) == 8.0 * Cube(x)
  {
  }
}

=== FILE: renderer.dfy ===
/**
  The renderer's own bookkeeping around the WebGL2 context: the name-keyed program
  registry, the (never used) buffer registry, the uniform-location cache, the
  blend function, the size fields sent as `u_resolution`, and the trace of GL calls
  it issues.
 */
module Renderer {
  import opened Basics
  import opened Gl

  /** A JavaScript `Map` from names to handles: insertion-ordered, unique names. */
  type Registry = seq<(string, Handle)>

  function Names(reg: Registry): set<string>
  {
    if reg == [] then {} else {reg[0].0} + Names(reg[1..])
  }

  function HandleSet(reg: Registry): set<Handle>
  {
    if reg == [] then {} else {reg[0].1} + HandleSet(reg[1..])
  }

  /** `Map.get`. */
  function Lookup(reg: Registry, name: string): (h: Option<Handle>)
    ensures h.Some? <==> name in Names(reg)
    ensures h.Some? ==> h.value in HandleSet(reg)
  {
    if reg == [] then None
    else if reg[0].0 == name then Some(reg[0].1)
    else Lookup(reg[1..], name)
  }

  /** `Map.set`: a present name keeps its place and gets the new handle; a new name is appended. */
  function Register(reg: Registry, name: string, h: Handle): (r: Registry)
    ensures Lookup(r, name) == Some(h)
    ensures forall n | n != name :: Lookup(r, n) == Lookup(reg, n)
    ensures Names(r) == Names(reg) + {name}
    ensures h in HandleSet(r) && HandleSet(r) <= HandleSet(reg) + {h}
    ensures |r| == if name in Names(reg) then |reg| else |reg| + 1
  {
    if reg == [] then [(name, h)]
    else if reg[0].0 == name then [(name, h)] + reg[1..]
    else [reg[0]] + Register(reg[1..], name, h)
  }

  /** Every name and every handle occurs once. */
  predicate WellKeyed(reg: Registry)
  {
    reg == [] ||
    (reg[0].0 !in Names(reg[1..]) && reg[0].1 !in HandleSet(reg[1..]) && WellKeyed(reg[1..]))
  }

  lemma {:induction false} RegisterFresh(reg: Registry, name: string, h: Handle)
    requires WellKeyed(reg)
    requires h !in HandleSet(reg)
    ensures WellKeyed(Register(reg, name, h))
  {
    if reg != [] && reg[0].0 != name {
      RegisterFresh(reg[1..], name, h);
    }
  }

  /** Delete calls for every program of a registry, in registry order. */
  function ProgramDeletions(reg: Registry): (es: seq<Event>)
    ensures |es| == |reg|
    ensures forall i | 0 <= i < |reg| :: es[i] == DeleteProgram(reg[i].1)
  {
    if reg == [] then [] else [DeleteProgram(reg[0].1)] + ProgramDeletions(reg[1..])
  }

  /** Delete calls for every buffer of a registry, in registry order. */
  function BufferDeletions(reg: Registry): (es: seq<Event>)
    ensures |es| == |reg|
    ensures forall i | 0 <= i < |reg| :: es[i] == DeleteBuffer(reg[i].1)
  {
    if reg == [] then [] else [DeleteBuffer(reg[0].1)] + BufferDeletions(reg[1..])
  }

  lemma {:induction false} DeletionsCountOnce(reg: Registry, h: Handle)
    requires WellKeyed(reg)
    ensures multiset(ProgramDeletions(reg))[DeleteProgram(h)] == if h in HandleSet(reg) then 1 else 0
  {
    if reg != [] {
      DeletionsCountOnce(reg[1..], h);
      assert ProgramDeletions(reg) == [DeleteProgram(reg[0].1)] + ProgramDeletions(reg[1..]);
    }
  }

  datatype State = State(
    programs: Registry,
    buffers: Registry,
    uniformLocations: map<string, Option<Location>>,
    blendEnabled: bool,
    blend: BlendFunc,
    canvasWidth: int,
    canvasHeight: int,
    width: int,
    height: int,
    nextHandle: Handle,
    log: seq<Event>)

  /**
    What holds for the renderer's whole lifetime: registered programs are distinct
    objects the context already handed out, and the buffer registry is empty
    (nothing ever adds to it).
   */
  predicate Valid(r: State)
  {
    && WellKeyed(r.programs)
    && (forall h | h in HandleSet(r.programs) :: h < r.nextHandle)
    && r.buffers == []
  }

  datatype GlError = ShaderCompileError(stage: Stage) | ProgramLinkError(name: string)

  /** The result of a renderer call that may throw, with the renderer as left at that point. */
  datatype Outcome<+T> = Done(value: T, gl: State) | Threw(error: GlError, gl: State)

  /**
    A step that only creates objects, caches locations or writes uniforms: it draws
    nothing, switches no blend function and leaves the sizes and buffer registry alone.
   */
  predicate QuietStep(r: State, r': State)
  {
    && Extends(r.log, r'.log)
    && Quiet(Emitted(r.log, r'.log))
    && r'.blend == r.blend
    && r'.blendEnabled == r.blendEnabled
    && r'.width == r.width && r'.height == r.height
    && r'.canvasWidth == r.canvasWidth && r'.canvasHeight == r.canvasHeight
    && r'.buffers == r.buffers
    && r.nextHandle <= r'.nextHandle
  }

  /** After a quiet step, the draws and blend switches of a longer run are those of its remainder. */
  lemma QuietThen(r1: State, r2: State, r3: State)
    requires QuietStep(r1, r2) && Extends(r2.log, r3.log)
    ensures Extends(r1.log, r3.log)
    ensures Emitted(r1.log, r3.log) == Emitted(r1.log, r2.log) + Emitted(r2.log, r3.log)
    ensures Draws(Emitted(r1.log, r3.log)) == Draws(Emitted(r2.log, r3.log))
    ensures Switches(Emitted(r1.log, r3.log)) == Switches(Emitted(r2.log, r3.log))
  {
    ExtendsTrans(r1.log, r2.log, r3.log);
    DrawsAppend(Emitted(r1.log, r2.log), Emitted(r2.log, r3.log));
    QuietHasNoDraws(Emitted(r1.log, r2.log));
  }

  lemma NoUploadsTrans(r1: State, r2: State, r3: State)
    requires Extends(r1.log, r2.log) && Extends(r2.log, r3.log)
    requires NoUploads(Emitted(r1.log, r2.log)) && NoUploads(Emitted(r2.log, r3.log))
    ensures Extends(r1.log, r3.log) && NoUploads(Emitted(r1.log, r3.log))
  {
    ExtendsTrans(r1.log, r2.log, r3.log);
    NoUploadsAppend(Emitted(r1.log, r2.log), Emitted(r2.log, r3.log));
  }

  lemma QuietStepTrans(r1: State, r2: State, r3: State)
    requires QuietStep(r1, r2) && QuietStep(r2, r3)
    ensures QuietStep(r1, r3)
  {
    var e12 := Emitted(r1.log, r2.log);
    var e23 := Emitted(r2.log, r3.log);
    assert r3.log == r1.log + (e12 + e23);
    assert Emitted(r1.log, r3.log) == e12 + e23;
  }

  /**
    The constructor: fails without a WebGL2 context; otherwise blending is enabled
    with standard alpha blending, the registries and cache are empty, and the size
    fields are zero until a resize finds the canvas size different from the client
    size.
   */
  function Create(webgl2: bool, canvasWidth: int, canvasHeight: int): (r: Result<State, string>)
    ensures r.Ok? <==> webgl2
    ensures r.Err? ==> r.error == "WebGL2 not supported"
    ensures r.Ok? ==> Valid(r.value)
    ensures r.Ok? ==> r.value.blendEnabled && r.value.blend == Normal
    ensures r.Ok? ==> r.value.programs == [] && r.value.uniformLocations == map[]
    ensures r.Ok? ==> r.value.width == 0 && r.value.height == 0
    ensures r.Ok? ==> r.value.log == [EnableBlend, SetBlend(Normal)]
  {
    if !webgl2 then Err("WebGL2 not supported")
    else Ok(State([], [], map[], true, Normal, canvasWidth, canvasHeight, 0, 0, 0,
                  [EnableBlend, SetBlend(Normal)]))
  }

  /** `gl.blendFunc(SRC_ALPHA, ONE)`. */
  function AdditiveBlending(r: State): (r': State)
    ensures r'.blend == Additive
    ensures r'.log == r.log + [SetBlend(Additive)]
    ensures r'.(blend := r.blend, log := r.log) == r
  {
    r.(blend := Additive, log := r.log + [SetBlend(Additive)])
  }

  /** `gl.blendFunc(SRC_ALPHA, ONE_MINUS_SRC_ALPHA)`. */
  function NormalBlending(r: State): (r': State)
    ensures r'.blend == Normal
    ensures r'.log == r.log + [SetBlend(Normal)]
    ensures r'.(blend := r.blend, log := r.log) == r
  {
    r.(blend := Normal, log := r.log + [SetBlend(Normal)])
  }

  /** `gl.enable(BLEND)`. */
  function EnableBlending(r: State): (r': State)
    ensures r'.blendEnabled
    ensures r'.log == r.log + [EnableBlend]
    ensures r'.(blendEnabled := r.blendEnabled, log := r.log) == r
  {
    r.(blendEnabled := true, log := r.log + [EnableBlend])
  }

  /** The renderer's state apart from its trace. */
  function Settled(r: State): State
  {
    r.(log := [])
  }

  lemma BlendTogglesIdempotent(r: State)
    ensures Settled(AdditiveBlending(AdditiveBlending(r))) == Settled(AdditiveBlending(r))
    ensures Settled(NormalBlending(NormalBlending(r))) == Settled(NormalBlending(r))
    ensures Settled(NormalBlending(AdditiveBlending(r))) == Settled(NormalBlending(r))
    ensures r.blend == Normal ==> Settled(NormalBlending(r)) == Settled(r)
  {
  }

  /**
    `createShader`: the context hands out a fresh object; a source that does not
    compile has its shader deleted and throws.
   */
  function CreateShader(r: State, d: Driver, source: Source): (o: Outcome<Handle>)
    ensures o.Done? <==> d.compiles(source)
    ensures o.Done? ==> o.value == r.nextHandle
    ensures o.Threw? ==> o.error == ShaderCompileError(source.stage)
    ensures o.gl.programs == r.programs && o.gl.uniformLocations == r.uniformLocations
    ensures o.gl.nextHandle == r.nextHandle + 1
    ensures QuietStep(r, o.gl)
    ensures forall i | 0 <= i < |Emitted(r.log, o.gl.log)| :: !Emitted(r.log, o.gl.log)[i].LinkProgram?
    ensures NoUploads(Emitted(r.log, o.gl.log))
    ensures o.gl.log == r.log + if o.Done? then [CompileShader(r.nextHandle, source.stage)]
                                else [CompileShader(r.nextHandle, source.stage), DeleteShader(r.nextHandle)]
  {
    var h := r.nextHandle;
    var r1 := r.(nextHandle := h + 1, log := r.log + [CompileShader(h, source.stage)]);
    if d.compiles(source) then Done(h, r1)
    else Threw(ShaderCompileError(source.stage), r1.(log := r1.log + [DeleteShader(h)]))
  }

  /**
    `createProgram`: both shaders must compile (a failure throws before any program
    object exists) and the program must link (a failure throws and registers
    nothing). On success the shaders are deleted and the program is registered under
    its name, replacing any earlier program of that name. A link failure deletes
    nothing: both compiled shaders and the program object are left behind.
   */
  method CreateProgram(r: State, d: Driver, vs: Source, fs: Source, name: string) returns (o: Outcome<Handle>)
    ensures QuietStep(r, o.gl)
    ensures o.Done? <==> d.compiles(vs) && d.compiles(fs) && d.links(vs, fs)
    ensures !d.compiles(vs) ==> o == Threw(ShaderCompileError(vs.stage), o.gl)
    ensures d.compiles(vs) && !d.compiles(fs) ==> o == Threw(ShaderCompileError(fs.stage), o.gl)
    ensures !d.compiles(vs) || !d.compiles(fs) ==>
      forall i | 0 <= i < |Emitted(r.log, o.gl.log)| :: !Emitted(r.log, o.gl.log)[i].LinkProgram?
    ensures d.compiles(vs) && d.compiles(fs) && !d.links(vs, fs) ==> o == Threw(ProgramLinkError(name), o.gl)
    ensures o.Done? ==> r.nextHandle <= o.value < o.gl.nextHandle
    ensures o.Done? && Valid(r) ==> o.value !in HandleSet(r.programs)
    ensures o.Done? ==> o.gl.programs == Register(r.programs, name, o.value)
    ensures o.Threw? ==> o.gl.programs == r.programs
    ensures o.gl.uniformLocations == r.uniformLocations
    ensures NoUploads(Emitted(r.log, o.gl.log))
    ensures Valid(r) ==> Valid(o.gl)
    ensures !d.compiles(vs) ==>
      o.gl.log == r.log + [CompileShader(r.nextHandle, vs.stage), DeleteShader(r.nextHandle)]
    ensures d.compiles(vs) && !d.compiles(fs) ==>
      o.gl.log == r.log +
        [CompileShader(r.nextHandle, vs.stage), CompileShader(r.nextHandle + 1, fs.stage), DeleteShader(r.nextHandle + 1)]
    ensures d.compiles(vs) && d.compiles(fs) && !d.links(vs, fs) ==>
      o.gl.log == r.log +
        [CompileShader(r.nextHandle, vs.stage), CompileShader(r.nextHandle + 1, fs.stage), LinkProgram(r.nextHandle + 2)]
    ensures o.Done? ==>
      && o.value == r.nextHandle + 2
      && o.gl.log == r.log +
           [CompileShader(r.nextHandle, vs.stage), CompileShader(r.nextHandle + 1, fs.stage), LinkProgram(r.nextHandle + 2),
            DeleteShader(r.nextHandle), DeleteShader(r.nextHandle + 1)]
  {
    var h := r.nextHandle;
    var c1 := CreateShader(r, d, vs);
    if c1.Threw? {
      return Threw(c1.error, c1.gl);
    }
    var c2 := CreateShader(c1.gl, d, fs);
    QuietStepTrans(r, c1.gl, c2.gl);
    NoUploadsTrans(r, c1.gl, c2.gl);
    if c2.Threw? {
      assert c2.gl.log == r.log + [CompileShader(h, vs.stage), CompileShader(h + 1, fs.stage), DeleteShader(h + 1)];
      return Threw(c2.error, c2.gl);
    }
    assert c2.gl.log == r.log + [CompileShader(h, vs.stage), CompileShader(h + 1, fs.stage)];
    o := LinkShaders(c2.gl, d, vs, fs, name, c1.value, c2.value);
    QuietStepTrans(r, c2.gl, o.gl);
    NoUploadsTrans(r, c2.gl, o.gl);
    var compiled := [CompileShader(h, vs.stage), CompileShader(h + 1, fs.stage)];
    if o.Done? {
      assert o.gl.log == r.log + compiled + [LinkProgram(h + 2), DeleteShader(h), DeleteShader(h + 1)];
      if Valid(r) {
        RegisterFresh(r.programs, name, o.value);
      }
    } else {
      assert o.gl.log == r.log + compiled + [LinkProgram(h + 2)];
    }
  }

  /**
    The second half of `createProgram`, once both shaders compiled: a new program
    object is linked; on failure it throws, deleting nothing; on success both
    shaders are deleted and the program is registered under its name.
   */
  method LinkShaders(r: State, d: Driver, vs: Source, fs: Source, name: string, v: Handle, f: Handle)
    returns (o: Outcome<Handle>)
    ensures QuietStep(r, o.gl)
    ensures o.Done? <==> d.links(vs, fs)
    ensures o.Threw? ==> o == Threw(ProgramLinkError(name), o.gl) && o.gl.programs == r.programs
    ensures o.gl.nextHandle == r.nextHandle + 1
    ensures o.gl.log == r.log + [LinkProgram(r.nextHandle)] + if o.Done? then [DeleteShader(v), DeleteShader(f)] else []
    ensures o.Done? ==> o.value == r.nextHandle && o.gl.programs == Register(r.programs, name, o.value)
    ensures o.gl.uniformLocations == r.uniformLocations
    ensures NoUploads(Emitted(r.log, o.gl.log))
    ensures Valid(r) ==> Valid(o.gl)
  {
    var p := r.nextHandle;
    var r1 := r.(nextHandle := p + 1, log := r.log + [LinkProgram(p)]);
    assert Emitted(r.log, r1.log) == [LinkProgram(p)];
    if !d.links(vs, fs) {
      return Threw(ProgramLinkError(name), r1);
    }
    var r2 := r1.(programs := Register(r1.programs, name, p),
                   log := r1.log + [DeleteShader(v), DeleteShader(f)]);
    assert Emitted(r1.log, r2.log) == [DeleteShader(v), DeleteShader(f)];
    QuietStepTrans(r, r1, r2);
    NoUploadsTrans(r, r1, r2);
    if Valid(r) {
      RegisterFresh(r1.programs, name, p);
    }
    return Done(p, r2);
  }

  /** `getProgram`. */
  function GetProgram(r: State, name: string): (h: Option<Handle>)
    ensures h.Some? <==> name in Names(r.programs)
  {
    Lookup(r.programs, name)
  }

  /** `useProgram`. */
  function UseProgram(r: State, program: Handle): (r': State)
    ensures r'.log == r.log + [Gl.UseProgram(program)]
    ensures r'.(log := r.log) == r
    ensures QuietStep(r, r')
  {
    r.(log := r.log + [Gl.UseProgram(program)])
  }

  /**
    `createBuffer`: a fresh buffer holding `data`. The renderer's own `buffers`
    registry is not touched.
   */
  function CreateBuffer(r: State, data: seq<real>): (c: (Handle, State))
    ensures c.0 == r.nextHandle && c.1.nextHandle == c.0 + 1
    ensures c.1.log == r.log + [UploadBuffer(c.0, data)]
    ensures c.1.programs == r.programs && c.1.buffers == r.buffers
    ensures c.1.uniformLocations == r.uniformLocations
    ensures QuietStep(r, c.1)
    ensures Valid(r) ==> Valid(c.1)
  {
    var h := r.nextHandle;
    (h, r.(nextHandle := h + 1, log := r.log + [UploadBuffer(h, data)]))
  }

  /** Two triangles covering clip space, as (x, y) pairs. */
  const QuadVertices: seq<real> :=
    [-1.0, -1.0, 1.0, -1.0, -1.0, 1.0, -1.0, 1.0, 1.0, -1.0, 1.0, 1.0]

  /** `createFullScreenQuad`: a fresh buffer of six 2D vertices spanning [-1, 1]². */
  function CreateFullScreenQuad(r: State): (c: (Handle, State))
    ensures c.1.log == r.log + [UploadBuffer(c.0, QuadVertices)]
    ensures |QuadVertices| == 2 * 6
    ensures forall i | 0 <= i < |QuadVertices| :: QuadVertices[i] == -1.0 || QuadVertices[i] == 1.0
    ensures c.0 == r.nextHandle && c.1.programs == r.programs
    ensures c.1.uniformLocations == r.uniformLocations
    ensures QuietStep(r, c.1)
    ensures Valid(r) ==> Valid(c.1)
  {
    CreateBuffer(r, QuadVertices)
  }

  /** `gl.drawArrays`, under whatever blend function is current. */
  function DrawArrays(r: State, mode: DrawMode, first: int, count: int): (r': State)
    ensures r'.log == r.log + [Draw(mode, first, count, r.blend)]
    ensures r'.(log := r.log) == r
  {
    r.(log := r.log + [Draw(mode, first, count, r.blend)])
  }

  /** A uniform's value as passed from JavaScript: a number or an array. */
  datatype UniformValue = Num(x: real) | Vec(xs: seq<real>)

  function Components(v: UniformValue): seq<real>
  {
    match v
    case Num(x) => [x]
    case Vec(xs) => xs
  }

  /** The type tags `setUniform` recognises. */
  const KnownTags: set<string> := {"1f", "2f", "3f", "4f", "1i", "mat4"}

  /** The value has the shape its tag reads (a number, enough components, a 4×4 matrix). */
  predicate Fits(tag: string, v: UniformValue)
  {
    if tag == "1f" || tag == "1i" then v.Num?
    else if tag == "2f" then v.Vec? && |v.xs| >= 2
    else if tag == "3f" then v.Vec? && |v.xs| >= 3
    else if tag == "4f" then v.Vec? && |v.xs| >= 4
    else if tag == "mat4" then v.Vec? && |v.xs| == 16
    else true
  }

  function Arity(k: UniformKind): nat
  {
    match k
    case Float1 => 1
    case Float2 => 2
    case Float3 => 3
    case Float4 => 4
    case Int1 => 1
    case Matrix4(_) => 16
  }

  /** The tag that selects each entry point. */
  function TagOf(k: UniformKind): string
  {
    match k
    case Float1 => "1f"
    case Float2 => "2f"
    case Float3 => "3f"
    case Float4 => "4f"
    case Int1 => "1i"
    case Matrix4(_) => "mat4"
  }

  /**
    The entry point and arguments a tag selects: the first `Arity` components of the
    value, a matrix untransposed; an unknown tag selects nothing.
   */
  function Encode(tag: string, v: UniformValue): (w: Option<(UniformKind, seq<real>)>)
    requires Fits(tag, v)
    ensures w.Some? <==> tag in KnownTags
    ensures w.Some? ==> TagOf(w.value.0) == tag && w.value.0 != Matrix4(true)
    ensures w.Some? ==> |w.value.1| == Arity(w.value.0) <= |Components(v)|
    ensures w.Some? ==> w.value.1 == Components(v)[..Arity(w.value.0)]
  {
    if tag == "1f" then Some((Float1, [v.x]))
    else if tag == "2f" then Some((Float2, v.xs[..2]))
    else if tag == "3f" then Some((Float3, v.xs[..3]))
    else if tag == "4f" then Some((Float4, v.xs[..4]))
    else if tag == "1i" then Some((Int1, [v.x]))
    else if tag == "mat4" then Some((Matrix4(false), v.xs))
    else None
  }

  /** The cache key: the program as printed in a template string, `_`, the uniform name. */
  function CacheKey(d: Driver, program: Handle, name: string): string
  {
    d.show(program) + "_" + name
  }

  /** The location `setUniform` uses: the cached one if the key was seen, else the driver's. */
  function Resolve(r: State, d: Driver, program: Handle, name: string): Option<Location>
  {
    var key := CacheKey(d, program, name);
    if key in r.uniformLocations then r.uniformLocations[key] else d.locate(program, name)
  }

  /**
    `setUniform`: the driver is asked for the location only when the key is not yet
    cached, and its answer is cached even when it is `null`. A `null` location or an
    unknown tag writes nothing.
   */
  function SetUniform(r: State, d: Driver, program: Handle, name: string, tag: string, v: UniformValue): (r': State)
    requires Fits(tag, v)
    ensures CacheKey(d, program, name) in r'.uniformLocations
    ensures CacheKey(d, program, name) in r.uniformLocations ==> r'.uniformLocations == r.uniformLocations
    ensures CacheKey(d, program, name) !in r.uniformLocations ==>
      r'.uniformLocations == r.uniformLocations[CacheKey(d, program, name) := d.locate(program, name)]
    ensures r'.uniformLocations[CacheKey(d, program, name)] == Resolve(r, d, program, name)
    ensures Resolve(r, d, program, name).None? || tag !in KnownTags ==> r'.log == r.log
    ensures Resolve(r, d, program, name).Some? && tag in KnownTags ==>
      r'.log == r.log + [UniformWrite(Resolve(r, d, program, name).value, Encode(tag, v).value.0, Encode(tag, v).value.1)]
    ensures r'.(log := r.log, uniformLocations := r.uniformLocations) == r
    ensures Extends(r.log, r'.log) && OnlyWrites(Emitted(r.log, r'.log))
  {
    var key := CacheKey(d, program, name);
    var loc := Resolve(r, d, program, name);
    var r1 := r.(uniformLocations := r.uniformLocations[key := loc]);
    assert key in r.uniformLocations ==> r1.uniformLocations == r.uniformLocations;
    match (loc, Encode(tag, v))
    case (Some(l), Some((k, vals))) => r1.(log := r1.log + [UniformWrite(l, k, vals)])
    case _ => r1
  }

  /**
    Two programs that print alike share every cache slot: once the first program
    has set a uniform, the second program's write of the same name goes to the
    first program's location (or is dropped if the first had none), whatever the
    driver would say for the second program.
   */
  lemma SharedCacheSlot(r: State, d: Driver, p1: Handle, p2: Handle, name: string, x: real, y: real)
    requires d.show(p1) == d.show(p2)
    requires CacheKey(d, p1, name) !in r.uniformLocations
    ensures var r1 := SetUniform(r, d, p1, name, "1f", Num(x));
            var r2 := SetUniform(r1, d, p2, name, "1f", Num(y));
            && Resolve(r1, d, p2, name) == d.locate(p1, name)
            && (d.locate(p1, name).None? ==> r2.log == r1.log)
            && (d.locate(p1, name).Some? ==> r2.log == r1.log + [UniformWrite(d.locate(p1, name).value, Float1, [y])])
  {
  }

  /**
    For two programs that print alike (one program, in particular), the cache key
    tells the uniform names apart: they share a slot exactly for the same name.
   */
  lemma CacheKeyNames(d: Driver, p: Handle, q: Handle, a: string, b: string)
    requires d.show(p) == d.show(q)
    ensures CacheKey(d, p, a) == CacheKey(d, q, b) <==> a == b
  {
    var prefix := d.show(p) + "_";
    if CacheKey(d, p, a) == CacheKey(d, q, b) {
      assert CacheKey(d, p, a)[|prefix|..] == a;
      assert CacheKey(d, q, b)[|prefix|..] == b;
    }
  }

  /** The same program and name hit the cache the second time: the driver is not asked again. */
  lemma LocationQueriedOnce(r: State, d: Driver, d': Driver, program: Handle, name: string, tag: string, v: UniformValue)
    requires Fits(tag, v)
    requires d'.show == d.show
    ensures var r1 := SetUniform(r, d, program, name, tag, v);
            && Resolve(r1, d', program, name) == Resolve(r, d, program, name)
            && SetUniform(r1, d', program, name, tag, v).uniformLocations == r1.uniformLocations
  {
  }

  /**
    `resize`: copies the client size into the canvas and the size fields (and sets
    the viewport) only when the canvas size differs from it.
   */
  function Resize(r: State, clientWidth: int, clientHeight: int): (r': State)
    ensures r'.canvasWidth == clientWidth && r'.canvasHeight == clientHeight
    ensures r.canvasWidth == clientWidth && r.canvasHeight == clientHeight ==> r' == r
    ensures r.canvasWidth != clientWidth || r.canvasHeight != clientHeight ==>
      && r'.width == clientWidth && r'.height == clientHeight
      && r'.log == r.log + [Viewport(clientWidth, clientHeight)]
    ensures r'.programs == r.programs && r'.buffers == r.buffers && r'.blend == r.blend
    ensures r'.uniformLocations == r.uniformLocations && r'.nextHandle == r.nextHandle
  {
    if r.canvasWidth != clientWidth || r.canvasHeight != clientHeight then
      r.(canvasWidth := clientWidth, canvasHeight := clientHeight,
         width := clientWidth, height := clientHeight,
         log := r.log + [Viewport(clientWidth, clientHeight)])
    else r
  }

  lemma ResizeIdempotent(r: State, w: int, h: int)
    ensures Resize(Resize(r, w, h), w, h) == Resize(r, w, h)
  {
  }

  /**
    `dispose`: deletes every registered program and buffer, in registration order,
    and empties the registries and the location cache.
   */
  function Dispose(r: State): (r': State)
    ensures r'.programs == [] && r'.buffers == [] && r'.uniformLocations == map[]
    ensures Extends(r.log, r'.log)
    ensures Emitted(r.log, r'.log) == ProgramDeletions(r.programs) + BufferDeletions(r.buffers)
    ensures Valid(r') && r'.blend == r.blend
  {
    var es := ProgramDeletions(r.programs) + BufferDeletions(r.buffers);
    Appended(r.log, es);
    assert HandleSet([]) == {};
    r.(programs := [], buffers := [], uniformLocations := map[], log := r.log + es)
  }

  /** On a valid renderer, dispose deletes each registered program exactly once and nothing else. */
  lemma DisposeDeletesEachOnce(r: State, h: Handle)
    requires Valid(r)
    ensures multiset(Emitted(r.log, Dispose(r).log))[DeleteProgram(h)] ==
            if h in HandleSet(r.programs) then 1 else 0
    ensures forall i | 0 <= i < |Emitted(r.log, Dispose(r).log)| :: Emitted(r.log, Dispose(r).log)[i].DeleteProgram?
  {
    DeletionsCountOnce(r.programs, h);
    assert BufferDeletions(r.buffers) == [];
    assert Emitted(r.log, Dispose(r).log) == ProgramDeletions(r.programs);
  }
}

=== FILE: scenes.dfy ===
/**
  The four concrete scenes. Each owns GL objects created lazily on its first render
  (programs registered by name, vertex buffers), sets the same family of uniforms
  from its clock and parameters, and issues a fixed pattern of draw calls; the
  particle and Lissajous scenes wrap their point draw in additive blending.
 */
module Scenes {
  import opened Basics
  import opened Gl
  import Renderer
  import Animation
  import Audio

  datatype Kind = Wave | Particle | Fractal | Lissajous

  /** Points drawn by the particle scene. */
  const ParticleCount: nat := 2000

  /** Points on the Lissajous curve. */
  const NumPoints: nat := 1000

  /** The GL objects a scene holds once initialised, by shape. */
  datatype Resources =
    | Unallocated
    | QuadSet(program: Handle, quad: Handle)
    | CloudSet(program: Handle, positions: Handle, indices: Handle)
    | CurveSet(pointProgram: Handle, lineProgram: Handle, indices: Handle)

  /** The resource shape each kind creates. */
  predicate Suits(k: Kind, res: Resources)
  {
    match k
    case Wave => res.QuadSet?
    case Fractal => res.QuadSet?
    case Particle => res.CloudSet?
    case Lissajous => res.CurveSet?
  }

  datatype Scene = Scene(kind: Kind, base: Animation.Base, res: Resources)

  /** A scene holds resources of its kind exactly when it is initialised. */
  predicate WellFormed(s: Scene)
  {
    if s.base.initialized then Suits(s.kind, s.res) else s.res == Unallocated
  }

  /** The intensity a scene starts with, which is also its fallback when reading it. */
  function DefaultIntensity(k: Kind): real
  {
    match k
    case Wave => 0.7
    case Fractal => 0.9
    case Particle => 0.8
    case Lissajous => 0.8
  }

  /** A new scene: the base fields plus its default parameters. */
  function New(k: Kind): (s: Scene)
    ensures s.kind == k && WellFormed(s)
    ensures s.base.time == 0.0 && !s.base.initialized
    ensures s.base.params.Keys == {"intensity", "speed", "colorShift"}
    ensures s.base.params["intensity"] == (if k == Fractal then 0.9 else if k == Wave then 0.7 else 0.8)
    ensures s.base.params["speed"] == 1.0 && s.base.params["colorShift"] == 0.0
    ensures Animation.Normalised(s.base.params)
  {
    var b := Animation.NewBase();
    Scene(k, b.(params := map["intensity" := DefaultIntensity(k), "speed" := 1.0, "colorShift" := 0.0]), Unallocated)
  }

  /** The scene's `update`: the base update, resources untouched. */
  function Update(s: Scene, dt: real, audio: Option<Audio.Feature>): (s': Scene)
    ensures s'.kind == s.kind && s'.res == s.res
    ensures s'.base == Animation.Update(s.base, dt, audio)
    ensures WellFormed(s) ==> WellFormed(s')
  {
    s.(base := Animation.Update(s.base, dt, audio))
  }

  // ---------------------------------------------------------------------------
  // Initialisation

  /** The vertex and fragment sources of the program registered under `name`. */
  function Vertex(name: string): Source { Source(name, VertexStage) }
  function Fragment(name: string): Source { Source(name, FragmentStage) }

  /** The driver compiles both shaders of `name` and links them. */
  predicate Builds(d: Driver, name: string)
  {
    d.compiles(Vertex(name)) && d.compiles(Fragment(name)) && d.links(Vertex(name), Fragment(name))
  }

  /** The names a kind registers its programs under. */
  function ProgramNames(k: Kind): set<string>
  {
    match k
    case Wave => {"wave"}
    case Fractal => {"fractal"}
    case Particle => {"particle"}
    case Lissajous => {"lissajous_point", "lissajous_line"}
  }

  /** Initialisation of kind `k` succeeds under driver `d`. */
  predicate InitSucceeds(k: Kind, d: Driver)
  {
    match k
    case Wave => Builds(d, "wave")
    case Fractal => Builds(d, "fractal")
    case Particle => Builds(d, "particle")
    case Lissajous => Builds(d, "lissajous_point") && Builds(d, "lissajous_line")
  }

  /** `[0, 1, ..., n - 1]` as floats: the vertex index attribute. */
  function Ramp(n: nat): (xs: seq<real>)
    ensures |xs| == n
    ensures forall i | 0 <= i < n :: xs[i] == i as real
  {
    seq(n, i => i as real)
  }

  /** `n` zeros. */
  function Zeros(n: nat): (xs: seq<real>)
    ensures |xs| == n
    ensures forall i | 0 <= i < n :: xs[i] == 0.0
  {
    seq(n, i => 0.0)
  }

  /** The vertex buffers a scene holds, in the order it created them. */
  function Buffers(res: Resources): seq<Handle>
  {
    match res
    case Unallocated => []
    case QuadSet(_, q) => [q]
    case CloudSet(_, pos, idx) => [pos, idx]
    case CurveSet(_, _, idx) => [idx]
  }

  /**
    The uploads initialisation performs: the full-screen quad, or one (x, y) zero
    pair per particle followed by the particle indices, or the curve's point indices.
   */
  function UploadPlan(res: Resources): seq<Event>
  {
    match res
    case Unallocated => []
    case QuadSet(_, q) => [UploadBuffer(q, Renderer.QuadVertices)]
    case CloudSet(_, pos, idx) => [UploadBuffer(pos, Zeros(2 * ParticleCount)), UploadBuffer(idx, Ramp(ParticleCount))]
    case CurveSet(_, _, idx) => [UploadBuffer(idx, Ramp(NumPoints))]
  }

  /** `createProgram(vs, fs, name)` with the scene's sources for `name`. */
  method MakeProgram(r: Renderer.State, d: Driver, name: string) returns (o: Renderer.Outcome<Handle>)
    ensures Renderer.QuietStep(r, o.gl) && NoUploads(Emitted(r.log, o.gl.log))
    ensures o.Done? <==> Builds(d, name)
    ensures o.Done? ==> r.nextHandle <= o.value < o.gl.nextHandle
    ensures o.Done? ==> o.gl.programs == Renderer.Register(r.programs, name, o.value)
    ensures o.Threw? ==> o.gl.programs == r.programs
    ensures o.gl.uniformLocations == r.uniformLocations
    ensures Renderer.Valid(r) ==> Renderer.Valid(o.gl)
  {
    o := Renderer.CreateProgram(r, d, Vertex(name), Fragment(name), name);
  }

  /** The uploads of a step that creates programs and then buffers are the buffers' uploads. */
  lemma UploadsAfterPrograms(r1: Renderer.State, r2: Renderer.State, r3: Renderer.State)
    requires Extends(r1.log, r2.log) && Extends(r2.log, r3.log)
    requires NoUploads(Emitted(r1.log, r2.log))
    ensures Extends(r1.log, r3.log)
    ensures Uploads(Emitted(r1.log, r3.log)) == Uploads(Emitted(r2.log, r3.log))
  {
    ExtendsTrans(r1.log, r2.log, r3.log);
    UploadsAppend(Emitted(r1.log, r2.log), Emitted(r2.log, r3.log));
    NoUploadsHasNone(Emitted(r1.log, r2.log));
  }

  /**
    `init` for a full-screen-quad scene: the program, then the quad buffer. A program
    failure throws before any buffer exists.
   */
  method InitQuad(r: Renderer.State, d: Driver, name: string) returns (o: Renderer.Outcome<Resources>)
    ensures Renderer.QuietStep(r, o.gl)
    ensures o.Done? <==> Builds(d, name)
    ensures o.Done? ==> o.value.QuadSet?
    ensures o.Done? ==> Renderer.Names(o.gl.programs) == Renderer.Names(r.programs) + {name}
    ensures o.Done? ==> Renderer.Lookup(o.gl.programs, name) == Some(o.value.program)
    ensures o.Done? ==> r.nextHandle <= o.value.program < o.value.quad < o.gl.nextHandle
    ensures o.Done? ==> Uploads(Emitted(r.log, o.gl.log)) == UploadPlan(o.value)
    ensures o.Threw? ==> NoUploads(Emitted(r.log, o.gl.log)) && o.gl.programs == r.programs
    ensures o.gl.uniformLocations == r.uniformLocations
    ensures Renderer.Valid(r) ==> Renderer.Valid(o.gl)
  {
    var m := MakeProgram(r, d, name);
    if m.Threw? {
      return Renderer.Threw(m.error, m.gl);
    }
    var p, r1 := m.value, m.gl;
    var c := Renderer.CreateFullScreenQuad(r1);
    Renderer.QuietStepTrans(r, r1, c.1);
    UploadsAfterPrograms(r, r1, c.1);
    assert Emitted(r1.log, c.1.log) == [UploadBuffer(c.0, Renderer.QuadVertices)];
    return Renderer.Done(QuadSet(p, c.0), c.1);
  }

  /**
    `init` for the particle scene: the program, then a buffer of `2 * count` zeros
    and a buffer of the indices `0 .. count - 1`.
   */
  method InitCloud(r: Renderer.State, d: Driver) returns (o: Renderer.Outcome<Resources>)
    ensures Renderer.QuietStep(r, o.gl)
    ensures o.Done? <==> Builds(d, "particle")
    ensures o.Done? ==> o.value.CloudSet?
    ensures o.Done? ==> Renderer.Names(o.gl.programs) == Renderer.Names(r.programs) + {"particle"}
    ensures o.Done? ==> Renderer.Lookup(o.gl.programs, "particle") == Some(o.value.program)
    ensures o.Done? ==> r.nextHandle <= o.value.program < o.value.positions < o.value.indices < o.gl.nextHandle
    ensures o.Done? ==> Uploads(Emitted(r.log, o.gl.log)) == UploadPlan(o.value)
    ensures o.Threw? ==> NoUploads(Emitted(r.log, o.gl.log)) && o.gl.programs == r.programs
    ensures o.gl.uniformLocations == r.uniformLocations
    ensures Renderer.Valid(r) ==> Renderer.Valid(o.gl)
  {
    var m := MakeProgram(r, d, "particle");
    if m.Threw? {
      return Renderer.Threw(m.error, m.gl);
    }
    var p, r1 := m.value, m.gl;
    var c1 := Renderer.CreateBuffer(r1, Zeros(2 * ParticleCount));
    var c2 := Renderer.CreateBuffer(c1.1, Ramp(ParticleCount));
    Renderer.QuietStepTrans(r, r1, c1.1);
    Renderer.QuietStepTrans(r, c1.1, c2.1);
    ExtendsTrans(r1.log, c1.1.log, c2.1.log);
    assert Emitted(r1.log, c2.1.log) ==
      [UploadBuffer(c1.0, Zeros(2 * ParticleCount)), UploadBuffer(c2.0, Ramp(ParticleCount))];
    UploadsAfterPrograms(r, r1, c2.1);
    return Renderer.Done(CloudSet(p, c1.0, c2.0), c2.1);
  }

  /**
    `init` for the Lissajous scene: the point program, the line program, then one
    buffer of the indices `0 .. numPoints - 1`. A line-program failure throws after
    the point program is already registered.
   */
  method InitCurve(r: Renderer.State, d: Driver) returns (o: Renderer.Outcome<Resources>)
    ensures Renderer.QuietStep(r, o.gl)
    ensures o.Done? <==> Builds(d, "lissajous_point") && Builds(d, "lissajous_line")
    ensures o.Done? ==> o.value.CurveSet?
    ensures o.Done? ==> Renderer.Names(o.gl.programs) == Renderer.Names(r.programs) + {"lissajous_point", "lissajous_line"}
    ensures o.Done? ==>
      o.gl.programs == Renderer.Register(Renderer.Register(r.programs, "lissajous_point", o.value.pointProgram),
                                         "lissajous_line", o.value.lineProgram)
    ensures o.Done? ==> r.nextHandle <= o.value.pointProgram < o.value.lineProgram < o.value.indices < o.gl.nextHandle
    ensures o.Done? ==> Uploads(Emitted(r.log, o.gl.log)) == UploadPlan(o.value)
    ensures o.Threw? ==> NoUploads(Emitted(r.log, o.gl.log))
    ensures o.Threw? && Builds(d, "lissajous_point") ==> "lissajous_point" in Renderer.Names(o.gl.programs)
    ensures o.gl.uniformLocations == r.uniformLocations
    ensures Renderer.Valid(r) ==> Renderer.Valid(o.gl)
  {
    var m := MakeProgram(r, d, "lissajous_point");
    if m.Threw? {
      return Renderer.Threw(m.error, m.gl);
    }
    var pt, r1 := m.value, m.gl;
    var m2 := MakeProgram(r1, d, "lissajous_line");
    Renderer.QuietStepTrans(r, r1, m2.gl);
    Renderer.NoUploadsTrans(r, r1, m2.gl);
    if m2.Threw? {
      return Renderer.Threw(m2.error, m2.gl);
    }
    var ln, r2 := m2.value, m2.gl;
    var c := Renderer.CreateBuffer(r2, Ramp(NumPoints));
    Renderer.QuietStepTrans(r, r2, c.1);
    UploadsAfterPrograms(r, r2, c.1);
    assert Emitted(r2.log, c.1.log) == [UploadBuffer(c.0, Ramp(NumPoints))];
    NamesOfTwo(r.programs, "lissajous_point", pt, "lissajous_line", ln);
    return Renderer.Done(CurveSet(pt, ln, c.0), c.1);
  }

  lemma NamesOfTwo(reg: Renderer.Registry, a: string, ha: Handle, b: string, hb: Handle)
    ensures Renderer.Names(Renderer.Register(Renderer.Register(reg, a, ha), b, hb)) == Renderer.Names(reg) + {a, b}
  {
  }

  /** After the Lissajous registrations, both programs are found under their own names. */
  lemma CurveRegistersBoth(reg: Renderer.Registry, pt: Handle, ln: Handle)
    ensures var reg' := Renderer.Register(Renderer.Register(reg, "lissajous_point", pt), "lissajous_line", ln);
            && Renderer.Lookup(reg', "lissajous_point") == Some(pt)
            && Renderer.Lookup(reg', "lissajous_line") == Some(ln)
  {
    assert "lissajous_point" != "lissajous_line" by {
      assert "lissajous_point"[10] != "lissajous_line"[10];
    }
  }

  /** The scene's `init`. */
  method Init(k: Kind, r: Renderer.State, d: Driver) returns (o: Renderer.Outcome<Resources>)
    ensures Renderer.QuietStep(r, o.gl)
    ensures o.Done? <==> InitSucceeds(k, d)
    ensures o.Done? ==> Suits(k, o.value)
    ensures o.Done? ==> Renderer.Names(o.gl.programs) == Renderer.Names(r.programs) + ProgramNames(k)
    ensures o.Done? ==> Uploads(Emitted(r.log, o.gl.log)) == UploadPlan(o.value)
    ensures o.Threw? ==> NoUploads(Emitted(r.log, o.gl.log))
    ensures o.gl.uniformLocations == r.uniformLocations
    ensures Renderer.Valid(r) ==> Renderer.Valid(o.gl)
  {
    match k
    case Wave => o := InitQuad(r, d, "wave");
    case Fractal => o := InitQuad(r, d, "fractal");
    case Particle => o := InitCloud(r, d);
    case Lissajous => o := InitCurve(r, d);
  }

  // ---------------------------------------------------------------------------
  // Uniforms

  /** One `setUniform(program, name, tag, value)` call of a render pass. */
  datatype Assignment = Assignment(name: string, tag: string, value: Renderer.UniformValue)

  predicate AllFit(us: seq<Assignment>)
  {
    forall i | 0 <= i < |us| :: Renderer.Fits(us[i].tag, us[i].value)
  }

  /**
    The uniforms a render pass sets: the clock, the renderer's size fields (zero
    until a resize finds the canvas size different from the client size) and the
    parameters, each read with the scene's own fallback. The particle scene sets no
    colour shift.
   */
  function Plan(s: Scene, width: int, height: int): (us: seq<Assignment>)
    ensures AllFit(us)
    ensures forall i | 0 <= i < |us| :: us[i].tag in Renderer.KnownTags
    ensures |us| == if s.kind == Particle then 4 else 5
  {
    var p := s.base.params;
    [ Assignment("u_time", "1f", Renderer.Num(s.base.time)),
      Assignment("u_resolution", "2f", Renderer.Vec([width as real, height as real])),
      Assignment("u_intensity", "1f", Renderer.Num(Animation.GetParam(p, "intensity", DefaultIntensity(s.kind)))),
      Assignment("u_speed", "1f", Renderer.Num(Animation.GetParam(p, "speed", 1.0))) ]
    + (if s.kind == Particle then []
       else [Assignment("u_colorShift", "1f", Renderer.Num(Animation.GetParam(p, "colorShift", 0.0)))])
  }

  /**
    A fresh scene's first pass sends its clock (zero), the renderer's size fields
    and its default parameters.
   */
  lemma FreshPlan(k: Kind, width: int, height: int)
    ensures var us := Plan(New(k), width, height);
            && us[0].value == Renderer.Num(0.0)
            && us[1].value == Renderer.Vec([width as real, height as real])
            && us[2] == Assignment("u_intensity", "1f", Renderer.Num(DefaultIntensity(k)))
            && us[3] == Assignment("u_speed", "1f", Renderer.Num(1.0))
            && (k != Particle ==> us[4] == Assignment("u_colorShift", "1f", Renderer.Num(0.0)))
  {
  }

  /** Every key of the plan is already in the renderer's location cache. */
  predicate Cached(cache: map<string, Option<Location>>, d: Driver, program: Handle, us: seq<Assignment>)
  {
    forall i | 0 <= i < |us| :: Renderer.CacheKey(d, program, us[i].name) in cache
  }

  /**
    The writes a plan produces against a fixed cache: one per assignment whose
    cached location is not null, with the entry point its tag selects.
   */
  function Writes(cache: map<string, Option<Location>>, d: Driver, program: Handle, us: seq<Assignment>): (ws: seq<Event>)
    requires AllFit(us) && Cached(cache, d, program, us)
    ensures |ws| <= |us|
    ensures forall i | 0 <= i < |ws| :: ws[i].UniformWrite?
    decreases |us|
  {
    if us == [] then []
    else
      var loc := cache[Renderer.CacheKey(d, program, us[0].name)];
      var w := Renderer.Encode(us[0].tag, us[0].value);
      (if loc.Some? && w.Some? then [UniformWrite(loc.value, w.value.0, w.value.1)] else [])
      + Writes(cache, d, program, us[1..])
  }

  /**
    The `setUniform` calls of a pass, in order. Every key ends up cached; once all
    keys were cached beforehand, the cache is unchanged and the trace is exactly
    `Writes` of that cache.
   */
  function SetUniforms(r: Renderer.State, d: Driver, program: Handle, us: seq<Assignment>): (r': Renderer.State)
    requires AllFit(us)
    ensures r'.(log := r.log, uniformLocations := r.uniformLocations) == r
    ensures Extends(r.log, r'.log) && OnlyWrites(Emitted(r.log, r'.log))
    ensures r.uniformLocations.Keys <= r'.uniformLocations.Keys
    ensures Cached(r'.uniformLocations, d, program, us)
    ensures Cached(r.uniformLocations, d, program, us) ==>
      r'.uniformLocations == r.uniformLocations &&
      Emitted(r.log, r'.log) == Writes(r.uniformLocations, d, program, us)
    decreases |us|
  {
    if us == [] then
      assert Emitted(r.log, r.log) == [];
      r
    else
      var r1 := Renderer.SetUniform(r, d, program, us[0].name, us[0].tag, us[0].value);
      AllFitTail(us);
      var r2 := SetUniforms(r1, d, program, us[1..]);
      ExtendsTrans(r.log, r1.log, r2.log);
      OnlyWritesAppend(Emitted(r.log, r1.log), Emitted(r1.log, r2.log));
      CachedCons(r2.uniformLocations, d, program, us);
      if Cached(r.uniformLocations, d, program, us) then
        CachedTail(r.uniformLocations, r1.uniformLocations, d, program, us);
        r2
      else
        r2
  }

  lemma AllFitTail(us: seq<Assignment>)
    requires AllFit(us) && us != []
    ensures AllFit(us[1..])
  {
    forall i | 0 <= i < |us[1..]| ensures Renderer.Fits(us[1..][i].tag, us[1..][i].value) {
      assert us[1..][i] == us[i + 1];
    }
  }

  /** A cache holding the first key and every key of the rest holds every key. */
  lemma CachedCons(cache: map<string, Option<Location>>, d: Driver, program: Handle, us: seq<Assignment>)
    requires us != []
    requires Renderer.CacheKey(d, program, us[0].name) in cache
    requires Cached(cache, d, program, us[1..])
    ensures Cached(cache, d, program, us)
  {
    forall i | 0 <= i < |us| ensures Renderer.CacheKey(d, program, us[i].name) in cache {
      if i > 0 {
        assert us[i] == us[1..][i - 1];
      }
    }
  }

  /** A cache holding every key of a plan, and any cache equal to it, holds every key of its tail. */
  lemma CachedTail(cache: map<string, Option<Location>>, cache': map<string, Option<Location>>, d: Driver, program: Handle, us: seq<Assignment>)
    requires us != [] && Cached(cache, d, program, us) && cache' == cache
    ensures Renderer.CacheKey(d, program, us[0].name) in cache
    ensures Cached(cache', d, program, us[1..])
  {
    forall i | 0 <= i < |us[1..]| ensures Renderer.CacheKey(d, program, us[1..][i].name) in cache' {
      assert us[1..][i] == us[i + 1];
    }
  }

  // ---------------------------------------------------------------------------
  // Drawing

  /** `bindBuffer(ARRAY_BUFFER, b)` for each buffer in turn: only the trace changes. */
  function BindAll(r: Renderer.State, buffers: seq<Handle>): Renderer.State
  {
    r.(log := r.log + Binds(buffers))
  }

  /** The binds of a pass, one per buffer in order. */
  function Binds(buffers: seq<Handle>): (es: seq<Event>)
    ensures |es| == |buffers|
    ensures forall i | 0 <= i < |buffers| :: es[i] == Gl.BindArrayBuffer(buffers[i])
    ensures Quiet(es) && NoUploads(es)
  {
    if buffers == [] then [] else [Gl.BindArrayBuffer(buffers[0])] + Binds(buffers[1..])
  }

  /** The blend a pass draws under: additive for a glow pass, else whatever is current. */
  function PassBlend(glow: bool, current: BlendFunc): BlendFunc
  {
    if glow then Additive else current
  }

  /** Select the program, set the uniforms, bind the buffers: everything a pass does before drawing. */
  method Prepare(r: Renderer.State, d: Driver, program: Handle, us: seq<Assignment>, buffers: seq<Handle>)
    returns (r': Renderer.State)
    requires AllFit(us)
    ensures Renderer.QuietStep(r, r') && NoUploads(Emitted(r.log, r'.log))
    ensures r'.programs == r.programs && r'.nextHandle == r.nextHandle
    ensures r.uniformLocations.Keys <= r'.uniformLocations.Keys
    ensures Cached(r'.uniformLocations, d, program, us)
    ensures Cached(r.uniformLocations, d, program, us) ==>
      r'.uniformLocations == r.uniformLocations &&
      Emitted(r.log, r'.log) == [Gl.UseProgram(program)] + Writes(r.uniformLocations, d, program, us) + Binds(buffers)
  {
    var r1 := Renderer.UseProgram(r, program);
    var r2 := SetUniforms(r1, d, program, us);
    r' := BindAll(r2, buffers);
    assert Emitted(r.log, r1.log) == [Gl.UseProgram(program)];
    assert Emitted(r2.log, r'.log) == Binds(buffers);
    OnlyWritesQuiet(Emitted(r1.log, r2.log));
    Renderer.QuietStepTrans(r, r1, r2);
    Renderer.NoUploadsTrans(r, r1, r2);
    Renderer.QuietStepTrans(r, r2, r');
    Renderer.NoUploadsTrans(r, r2, r');
    ExtendsTrans(r.log, r1.log, r2.log);
    ExtendsTrans(r.log, r2.log, r'.log);
  }

  /** The draw of a pass, bracketed by additive and then normal blending when it glows. */
  function StrikeTrace(mode: DrawMode, count: int, glow: bool, current: BlendFunc): seq<Event>
  {
    if glow then [SetBlend(Additive), Draw(mode, 0, count, Additive), SetBlend(Normal)]
    else [Draw(mode, 0, count, current)]
  }

  /** The draw step of a pass: exactly one draw, under the pass's blend, and the glow bracket. */
  lemma StrikeShape(mode: DrawMode, count: int, glow: bool, current: BlendFunc)
    ensures Draws(StrikeTrace(mode, count, glow, current)) == [Draw(mode, 0, count, PassBlend(glow, current))]
    ensures Switches(StrikeTrace(mode, count, glow, current)) == (if glow then [Additive, Normal] else [])
    ensures NoUploads(StrikeTrace(mode, count, glow, current))
  {
    var t := StrikeTrace(mode, count, glow, current);
    if glow {
      assert t[1..] == [Draw(mode, 0, count, Additive), SetBlend(Normal)];
      assert t[1..][1..] == [SetBlend(Normal)];
      assert t[1..][1..][1..] == [];
      assert Draws(t[1..][1..]) == [];
      assert Switches(t[1..][1..]) == [Normal];
    } else {
      assert t[1..] == [];
    }
  }

  /** `drawArrays(mode, 0, count)`, under additive blending and then back to normal when the pass glows. */
  function Strike(r: Renderer.State, mode: DrawMode, count: int, glow: bool): (r': Renderer.State)
    ensures Extends(r.log, r'.log)
    ensures Emitted(r.log, r'.log) == StrikeTrace(mode, count, glow, r.blend)
    ensures r'.blend == if glow then Normal else r.blend
    ensures r'.(log := r.log, blend := r.blend) == r
  {
    if glow then
      var r1 := Renderer.DrawArrays(Renderer.AdditiveBlending(r), mode, 0, count);
      Renderer.NormalBlending(r1)
    else
      Renderer.DrawArrays(r, mode, 0, count)
  }

  /** The whole trace of a pass whose locations were all cached beforehand. */
  function PassTrace(cache: map<string, Option<Location>>, d: Driver, program: Handle, us: seq<Assignment>,
                     buffers: seq<Handle>, mode: DrawMode, count: int, glow: bool, current: BlendFunc): seq<Event>
    requires AllFit(us) && Cached(cache, d, program, us)
  {
    [Gl.UseProgram(program)] + Writes(cache, d, program, us) + Binds(buffers) + StrikeTrace(mode, count, glow, current)
  }

  /**
    One draw pass: select the program, set the uniforms, bind the buffers, draw
    `count` vertices from 0; a glow pass switches to additive blending for the draw
    and back to normal after it. In steady state (every location of the plan
    already cached) the cache is left as it is and the trace is the closed form:
    select, the `Writes` of the cache, the binds, the draw step.
   */
  method Pass(r: Renderer.State, d: Driver, program: Handle, us: seq<Assignment>, buffers: seq<Handle>,
              mode: DrawMode, count: int, glow: bool) returns (r': Renderer.State)
    requires AllFit(us)
    ensures Extends(r.log, r'.log)
    ensures Draws(Emitted(r.log, r'.log)) == [Draw(mode, 0, count, PassBlend(glow, r.blend))]
    ensures Switches(Emitted(r.log, r'.log)) == if glow then [Additive, Normal] else []
    ensures NoUploads(Emitted(r.log, r'.log))
    ensures r'.blend == if glow then Normal else r.blend
    ensures Framed(r, r')
    ensures r.uniformLocations.Keys <= r'.uniformLocations.Keys
    ensures Cached(r'.uniformLocations, d, program, us)
    ensures Cached(r.uniformLocations, d, program, us) ==>
      && r'.uniformLocations == r.uniformLocations
      && Emitted(r.log, r'.log) == PassTrace(r.uniformLocations, d, program, us, buffers, mode, count, glow, r.blend)
  {
    var r1 := Prepare(r, d, program, us, buffers);
    r' := Strike(r1, mode, count, glow);
    StrikeShape(mode, count, glow, r.blend);
    Renderer.QuietThen(r, r1, r');
    Renderer.NoUploadsTrans(r, r1, r');
  }

  /** The draw calls a scene's render issues, given the blend function current on entry. */
  function DrawPlan(k: Kind, current: BlendFunc): seq<Event>
  {
    match k
    case Wave => [Draw(Triangles, 0, 6, current)]
    case Fractal => [Draw(Triangles, 0, 6, current)]
    case Particle => [Draw(Points, 0, ParticleCount, Additive)]
    case Lissajous => [Draw(LineStrip, 0, NumPoints, current), Draw(Points, 0, NumPoints, Additive)]
  }

  /** The scenes that draw with glow and switch the blend function. */
  predicate Glows(k: Kind)
  {
    k == Particle || k == Lissajous
  }

  /** The blend switches a scene's render makes: into additive for the glow and back to normal. */
  function SwitchPlan(k: Kind): seq<BlendFunc>
  {
    if Glows(k) then [Additive, Normal] else []
  }

  /** What drawing leaves alone: registries, handles, blending switch, sizes. */
  predicate Framed(r: Renderer.State, r': Renderer.State)
  {
    && r'.programs == r.programs && r'.nextHandle == r.nextHandle && r'.buffers == r.buffers
    && r'.blendEnabled == r.blendEnabled && r'.width == r.width && r'.height == r.height
    && r'.canvasWidth == r.canvasWidth && r'.canvasHeight == r.canvasHeight
  }

  /**
    Every location a render of the scene sets is already cached, for each of its
    programs: the state of every frame after the first at an unchanged size.
   */
  predicate Steady(s: Scene, cache: map<string, Option<Location>>, d: Driver, width: int, height: int)
  {
    var us := Plan(s, width, height);
    match s.res
    case Unallocated => false
    case QuadSet(p, _) => Cached(cache, d, p, us)
    case CloudSet(p, _, _) => Cached(cache, d, p, us)
    case CurveSet(pt, ln, _) => Cached(cache, d, ln, us) && Cached(cache, d, pt, us)
  }

  /**
    The trace a steady render of an initialised scene emits, given the blend
    function current on entry: one pass of the scene's plan per program, the
    Lissajous line pass before its point pass.
   */
  function SceneTrace(s: Scene, cache: map<string, Option<Location>>, d: Driver, width: int, height: int,
                      current: BlendFunc): seq<Event>
    requires Steady(s, cache, d, width, height)
  {
    var us := Plan(s, width, height);
    match s.res
    case QuadSet(p, q) => PassTrace(cache, d, p, us, [q], Triangles, 6, false, current)
    case CloudSet(p, pos, idx) => PassTrace(cache, d, p, us, [pos, idx], Points, ParticleCount, true, current)
    case CurveSet(pt, ln, idx) =>
      PassTrace(cache, d, ln, us, [idx], LineStrip, NumPoints, false, current)
      + PassTrace(cache, d, pt, us, [idx], Points, NumPoints, true, current)
  }

  /** A cache that only gained keys still holds every key it held. */
  lemma CachedGrows(cache: map<string, Option<Location>>, cache': map<string, Option<Location>>, d: Driver,
                    program: Handle, us: seq<Assignment>)
    requires cache.Keys <= cache'.Keys && Cached(cache, d, program, us)
    ensures Cached(cache', d, program, us)
  {
    forall i | 0 <= i < |us| ensures Renderer.CacheKey(d, program, us[i].name) in cache' {
      assert Renderer.CacheKey(d, program, us[i].name) in cache.Keys;
    }
  }

  /**
    The uniforms a render sets are named by the scene's kind alone: a scene whose
    clock and parameters moved on, rendered against a cache that only gained keys,
    is still steady.
   */
  lemma {:induction false} SteadyAcrossFrames(s: Scene, s': Scene, cache: map<string, Option<Location>>,
                                              cache': map<string, Option<Location>>, d: Driver, width: int, height: int)
    requires s'.kind == s.kind && s'.res == s.res
    requires cache.Keys <= cache'.Keys
    requires Steady(s, cache, d, width, height)
    ensures Steady(s', cache', d, width, height)
  {
    var us := Plan(s, width, height);
    var us' := Plan(s', width, height);
    assert |us'| == |us|;
    forall p: Handle | Cached(cache, d, p, us) ensures Cached(cache', d, p, us') {
      CachedGrows(cache, cache', d, p, us);
      forall i | 0 <= i < |us'| ensures Renderer.CacheKey(d, p, us'[i].name) in cache' {
        assert us'[i].name == us[i].name;
      }
    }
  }

  /**
    The drawing part of `render` once resources exist. Wave and Fractal draw the
    quad as six triangle vertices; Particle draws its points additively; Lissajous
    draws the line strip, then the same points additively, setting the same
    uniforms on both programs. Afterwards the scene is steady; when it was steady
    already, the cache is untouched and the trace is `SceneTrace` of the scene's
    uniform plan.
   */
  method DrawScene(s: Scene, r: Renderer.State, d: Driver) returns (r': Renderer.State)
    requires Suits(s.kind, s.res)
    ensures Extends(r.log, r'.log)
    ensures Draws(Emitted(r.log, r'.log)) == DrawPlan(s.kind, r.blend)
    ensures Switches(Emitted(r.log, r'.log)) == SwitchPlan(s.kind)
    ensures NoUploads(Emitted(r.log, r'.log))
    ensures r'.blend == if Glows(s.kind) then Normal else r.blend
    ensures Framed(r, r')
    ensures r.uniformLocations.Keys <= r'.uniformLocations.Keys
    ensures Steady(s, r'.uniformLocations, d, r.width, r.height)
    ensures Steady(s, r.uniformLocations, d, r.width, r.height) ==>
      && r'.uniformLocations == r.uniformLocations
      && Emitted(r.log, r'.log) == SceneTrace(s, r.uniformLocations, d, r.width, r.height, r.blend)
  {
    var us := Plan(s, r.width, r.height);
    match s.res
    case QuadSet(p, q) => r' := Pass(r, d, p, us, [q], Triangles, 6, false);
    case CloudSet(p, pos, idx) => r' := Pass(r, d, p, us, [pos, idx], Points, ParticleCount, true);
    case CurveSet(pt, ln, idx) => r' := DrawCurve(r, d, us, pt, ln, idx);
  }

  /**
    The Lissajous render: the line pass, then the glowing point pass, both with
    one uniform plan. In steady state the trace is the line pass's followed by the
    point pass's, both against the cache as it was on entry.
   */
  method DrawCurve(r: Renderer.State, d: Driver, us: seq<Assignment>, pt: Handle, ln: Handle, idx: Handle)
    returns (r': Renderer.State)
    requires AllFit(us)
    ensures Extends(r.log, r'.log)
    ensures Draws(Emitted(r.log, r'.log)) == [Draw(LineStrip, 0, NumPoints, r.blend), Draw(Points, 0, NumPoints, Additive)]
    ensures Switches(Emitted(r.log, r'.log)) == [Additive, Normal]
    ensures NoUploads(Emitted(r.log, r'.log))
    ensures r'.blend == Normal
    ensures Framed(r, r')
    ensures r.uniformLocations.Keys <= r'.uniformLocations.Keys
    ensures Cached(r'.uniformLocations, d, ln, us) && Cached(r'.uniformLocations, d, pt, us)
    ensures Cached(r.uniformLocations, d, ln, us) && Cached(r.uniformLocations, d, pt, us) ==>
      && r'.uniformLocations == r.uniformLocations
      && Emitted(r.log, r'.log) ==
           PassTrace(r.uniformLocations, d, ln, us, [idx], LineStrip, NumPoints, false, r.blend)
           + PassTrace(r.uniformLocations, d, pt, us, [idx], Points, NumPoints, true, r.blend)
  {
    var r1 := Pass(r, d, ln, us, [idx], LineStrip, NumPoints, false);
    r' := Pass(r1, d, pt, us, [idx], Points, NumPoints, true);
    Consecutive(r.log, r1.log, r'.log);
    CachedGrows(r1.uniformLocations, r'.uniformLocations, d, ln, us);
    if Cached(r.uniformLocations, d, ln, us) && Cached(r.uniformLocations, d, pt, us) {
      ExtendsTrans(r.log, r1.log, r'.log);
    }
  }

  /** Every location of the plan is cached, and none of them is `null`. */
  predicate Located(cache: map<string, Option<Location>>, d: Driver, program: Handle, us: seq<Assignment>)
  {
    && Cached(cache, d, program, us)
    && forall i | 0 <= i < |us| :: cache[Renderer.CacheKey(d, program, us[i].name)].Some?
  }

  /** A steady scene none of whose locations is `null`. */
  predicate Reachable(s: Scene, cache: map<string, Option<Location>>, d: Driver, width: int, height: int)
  {
    var us := Plan(s, width, height);
    match s.res
    case Unallocated => false
    case QuadSet(p, _) => Located(cache, d, p, us)
    case CloudSet(p, _, _) => Located(cache, d, p, us)
    case CurveSet(pt, ln, _) => Located(cache, d, ln, us) && Located(cache, d, pt, us)
  }

  /**
    What one pass of the scene sends through its uniform writes, as the render
    bodies spell it out: the clock as one float, the renderer's size fields as two,
    then intensity and speed, and (except for particles) the colour shift, each
    read with the scene's own fallback.
   */
  function Sent(s: Scene, width: int, height: int): (vs: seq<(UniformKind, seq<real>)>)
    ensures |vs| == if s.kind == Particle then 4 else 5
  {
    var p := s.base.params;
    [ (Float1, [s.base.time]),
      (Float2, [width as real, height as real]),
      (Float1, [Animation.GetParam(p, "intensity", DefaultIntensity(s.kind))]),
      (Float1, [Animation.GetParam(p, "speed", 1.0)]) ]
    + (if s.kind == Particle then [] else [(Float1, [Animation.GetParam(p, "colorShift", 0.0)])])
  }

  /**
    The values a steady render writes, when no location is `null`: `Sent` once for
    the single-program scenes, and `Sent` twice for Lissajous, whose line and point
    programs receive the same values.
   */
  lemma RenderedUniforms(s: Scene, cache: map<string, Option<Location>>, d: Driver, width: int, height: int,
                         current: BlendFunc)
    requires Reachable(s, cache, d, width, height)
    ensures Steady(s, cache, d, width, height)
    ensures Payloads(SceneTrace(s, cache, d, width, height, current)) ==
      if s.res.CurveSet? then Sent(s, width, height) + Sent(s, width, height) else Sent(s, width, height)
  {
    var us := Plan(s, width, height);
    PlanSends(s, width, height);
    match s.res
    case QuadSet(p, q) =>
      PassPayloads(cache, d, p, us, [q], Triangles, 6, false, current);
    case CloudSet(p, pos, idx) =>
      PassPayloads(cache, d, p, us, [pos, idx], Points, ParticleCount, true, current);
    case CurveSet(pt, ln, idx) =>
      PassPayloads(cache, d, ln, us, [idx], LineStrip, NumPoints, false, current);
      PassPayloads(cache, d, pt, us, [idx], Points, NumPoints, true, current);
      PayloadsAppend(PassTrace(cache, d, ln, us, [idx], LineStrip, NumPoints, false, current),
                     PassTrace(cache, d, pt, us, [idx], Points, NumPoints, true, current));
  }

  /** The encoded value of each assignment, in order. */
  function Encoded(us: seq<Assignment>): (vs: seq<(UniformKind, seq<real>)>)
    requires AllFit(us)
    requires forall i | 0 <= i < |us| :: us[i].tag in Renderer.KnownTags
    ensures |vs| == |us|
    ensures forall i | 0 <= i < |us| :: vs[i] == Renderer.Encode(us[i].tag, us[i].value).value
  {
    if us == [] then []
    else [Renderer.Encode(us[0].tag, us[0].value).value] + Encoded(us[1..])
  }

  /** Encoding the scene's plan gives exactly the values `Sent` lists. */
  lemma PlanSends(s: Scene, width: int, height: int)
    ensures Encoded(Plan(s, width, height)) == Sent(s, width, height)
  {
    var us := Plan(s, width, height);
    assert [width as real, height as real][..2] == [width as real, height as real];
  }

  /** With no location `null`, a pass sends the encoded values of its plan and nothing else. */
  lemma {:induction false} PassPayloads(cache: map<string, Option<Location>>, d: Driver, program: Handle, us: seq<Assignment>,
                     buffers: seq<Handle>, mode: DrawMode, count: int, glow: bool, current: BlendFunc)
    requires AllFit(us) && Located(cache, d, program, us)
    requires forall i | 0 <= i < |us| :: us[i].tag in Renderer.KnownTags
    ensures Payloads(PassTrace(cache, d, program, us, buffers, mode, count, glow, current)) == Encoded(us)
  {
    var ws := Writes(cache, d, program, us);
    var bs := Binds(buffers);
    var st := StrikeTrace(mode, count, glow, current);
    PayloadsAppend([Gl.UseProgram(program)], ws);
    PayloadsAppend([Gl.UseProgram(program)] + ws, bs);
    PayloadsAppend([Gl.UseProgram(program)] + ws + bs, st);
    NoPayloads([Gl.UseProgram(program)]);
    NoPayloads(bs);
    NoPayloads(st);
    WritesPayloads(cache, d, program, us);
  }

  /**
    With no location `null`, the writes of a plan send its encoded values, in order.
    This is the statement through the `Payloads` filter, which composes with the
    rest of a pass by `PayloadsAppend`; `WritesPayload` below says instead where
    each write goes, index by index.
   */
  lemma {:induction false} WritesPayloads(cache: map<string, Option<Location>>, d: Driver, program: Handle, us: seq<Assignment>)
    requires AllFit(us) && Located(cache, d, program, us)
    requires forall i | 0 <= i < |us| :: us[i].tag in Renderer.KnownTags
    ensures Payloads(Writes(cache, d, program, us)) == Encoded(us)
    decreases |us|
  {
    if us != [] {
      var rest := us[1..];
      AllFitTail(us);
      CachedTail(cache, cache, d, program, us);
      forall i | 0 <= i < |rest|
        ensures rest[i].tag in Renderer.KnownTags && cache[Renderer.CacheKey(d, program, rest[i].name)].Some?
      {
        assert rest[i] == us[i + 1];
      }
      WritesPayloads(cache, d, program, rest);
      var loc := cache[Renderer.CacheKey(d, program, us[0].name)];
      var w := Renderer.Encode(us[0].tag, us[0].value);
      var head := [UniformWrite(loc.value, w.value.0, w.value.1)];
      assert Writes(cache, d, program, us) == head + Writes(cache, d, program, rest);
      PayloadsAppend(head, Writes(cache, d, program, rest));
      assert Payloads(head) == [w.value] by {
        assert head[1..] == [];
      }
    }
  }

  /**
    With every location present, there is one write per assignment, to that
    assignment's cached location and carrying its encoded payload. Unlike
    `WritesPayloads`, this names the locations written, not only the values sent.
   */
  lemma {:induction false} WritesPayload(cache: map<string, Option<Location>>, d: Driver, program: Handle, us: seq<Assignment>)
    requires AllFit(us) && Cached(cache, d, program, us)
    requires forall i | 0 <= i < |us| :: us[i].tag in Renderer.KnownTags
    requires forall i | 0 <= i < |us| :: cache[Renderer.CacheKey(d, program, us[i].name)].Some?
    ensures |Writes(cache, d, program, us)| == |us|
    ensures forall i | 0 <= i < |us| ::
      Writes(cache, d, program, us)[i] ==
        UniformWrite(cache[Renderer.CacheKey(d, program, us[i].name)].value,
                     Renderer.Encode(us[i].tag, us[i].value).value.0,
                     Renderer.Encode(us[i].tag, us[i].value).value.1)
    decreases |us|
  {
    if us != [] {
      var rest := us[1..];
      AllFitTail(us);
      CachedTail(cache, cache, d, program, us);
      forall i | 0 <= i < |rest|
        ensures rest[i].tag in Renderer.KnownTags && cache[Renderer.CacheKey(d, program, rest[i].name)].Some?
      {
        assert rest[i] == us[i + 1];
      }
      WritesPayload(cache, d, program, rest);
      var loc := cache[Renderer.CacheKey(d, program, us[0].name)];
      var w := Renderer.Encode(us[0].tag, us[0].value);
      var tail := Writes(cache, d, program, rest);
      assert Writes(cache, d, program, us) == [UniformWrite(loc.value, w.value.0, w.value.1)] + tail;
      forall i | 0 < i < |us|
        ensures Writes(cache, d, program, us)[i] ==
          UniformWrite(cache[Renderer.CacheKey(d, program, us[i].name)].value,
                       Renderer.Encode(us[i].tag, us[i].value).value.0,
                       Renderer.Encode(us[i].tag, us[i].value).value.1)
      {
        assert us[i] == rest[i - 1];
      }
    }
  }

  // ---------------------------------------------------------------------------
  // Render and dispose

  /**
    The scene's `render`: on the first call `init` runs and the scene is marked
    initialised only if it returns; a throwing `init` leaves the scene as it was
    and draws nothing. Then the draw. Once initialised, a render creates nothing:
    programs and handles stay as they are and the scene is returned unchanged.
    A render that returns leaves the scene steady; a steady render emits exactly
    `SceneTrace`, whose uniform values `RenderedUniforms` spells out.
   */
  method Render(s: Scene, r: Renderer.State, d: Driver) returns (o: Renderer.Outcome<Scene>)
    requires WellFormed(s)
    ensures Extends(r.log, o.gl.log)
    ensures o.Done? <==> s.base.initialized || InitSucceeds(s.kind, d)
    ensures o.Done? ==> o.value.kind == s.kind && o.value.base == s.base.(initialized := true) && WellFormed(o.value)
    ensures s.base.initialized ==> o.Done? && o.value == s
    ensures s.base.initialized ==> o.gl.programs == r.programs && o.gl.nextHandle == r.nextHandle
    ensures s.base.initialized ==> NoUploads(Emitted(r.log, o.gl.log))
    ensures !s.base.initialized && o.Done? ==>
      Renderer.Names(o.gl.programs) == Renderer.Names(r.programs) + ProgramNames(s.kind)
    ensures !s.base.initialized && o.Done? ==> Uploads(Emitted(r.log, o.gl.log)) == UploadPlan(o.value.res)
    ensures o.Threw? ==> Renderer.QuietStep(r, o.gl) && NoUploads(Emitted(r.log, o.gl.log))
    ensures o.Done? ==> Draws(Emitted(r.log, o.gl.log)) == DrawPlan(s.kind, r.blend)
    ensures o.Done? ==> Switches(Emitted(r.log, o.gl.log)) == SwitchPlan(s.kind)
    ensures o.gl.blend == if o.Done? && Glows(s.kind) then Normal else r.blend
    ensures o.gl.blendEnabled == r.blendEnabled && o.gl.width == r.width && o.gl.height == r.height
    ensures o.gl.buffers == r.buffers
    ensures Renderer.Valid(r) ==> Renderer.Valid(o.gl)
    ensures o.Done? ==> Steady(o.value, o.gl.uniformLocations, d, r.width, r.height)
    ensures s.base.initialized && Steady(s, r.uniformLocations, d, r.width, r.height) ==>
      && o.gl.uniformLocations == r.uniformLocations
      && Emitted(r.log, o.gl.log) == SceneTrace(s, r.uniformLocations, d, r.width, r.height, r.blend)
  {
    if s.base.initialized {
      var r' := DrawScene(s, r, d);
      return Renderer.Done(s, r');
    }
    var i := Init(s.kind, r, d);
    if i.Threw? {
      return Renderer.Threw(i.error, i.gl);
    }
    var s1 := s.(base := s.base.(initialized := true), res := i.value);
    var r2 := DrawScene(s1, i.gl, d);
    Renderer.QuietThen(r, i.gl, r2);
    UploadsAfterDraw(r, i.gl, r2);
    return Renderer.Done(s1, r2);
  }

  /** Drawing uploads nothing, so the uploads of init-then-draw are init's. */
  lemma UploadsAfterDraw(r1: Renderer.State, r2: Renderer.State, r3: Renderer.State)
    requires Extends(r1.log, r2.log) && Extends(r2.log, r3.log)
    requires NoUploads(Emitted(r2.log, r3.log))
    ensures Extends(r1.log, r3.log)
    ensures Uploads(Emitted(r1.log, r3.log)) == Uploads(Emitted(r1.log, r2.log))
  {
    ExtendsTrans(r1.log, r2.log, r3.log);
    UploadsAppend(Emitted(r1.log, r2.log), Emitted(r2.log, r3.log));
    NoUploadsHasNone(Emitted(r2.log, r3.log));
  }

  /** `deleteBuffer` for each buffer in turn. */
  function Deletes(buffers: seq<Handle>): (es: seq<Event>)
    ensures |es| == |buffers|
    ensures forall i | 0 <= i < |buffers| :: es[i] == DeleteBuffer(buffers[i])
  {
    if buffers == [] then [] else [DeleteBuffer(buffers[0])] + Deletes(buffers[1..])
  }

  /**
    The scene's `dispose`: deletes the vertex buffers it holds, if any, and never
    its programs (those belong to the renderer's registry). The scene keeps its
    references, so a second call deletes the same buffers again.
   */
  function Dispose(s: Scene, r: Renderer.State): (r': Renderer.State)
    ensures Extends(r.log, r'.log)
    ensures Emitted(r.log, r'.log) == Deletes(Buffers(s.res))
    ensures forall i | 0 <= i < |Emitted(r.log, r'.log)| :: !Emitted(r.log, r'.log)[i].DeleteProgram?
    ensures r'.(log := r.log) == r
  {
    r.(log := r.log + Deletes(Buffers(s.res)))
  }

  /** Disposing an uninitialised scene does nothing. */
  lemma DisposeBeforeInit(k: Kind, r: Renderer.State)
    ensures Dispose(New(k), r) == r
  {
    assert r.log + [] == r.log;
  }

  /**
    Dispose frees exactly the buffers the scene's initialisation uploaded, in the
    same order.
   */
  lemma DisposeFreesUploads(res: Resources)
    ensures Deletes(Buffers(res)) == seq(|UploadPlan(res)|, i requires 0 <= i < |UploadPlan(res)| => DeleteBuffer(UploadPlan(res)[i].buffer))
  {
  }
}
